=== FILE: README.md ===
# restaurant_queue in Dafny

A model of a WhatsApp bot that runs a restaurant waitlist. Customers say
"hi", then send "Name, Count", and are queued. A waiter logs in with
"waiter" and the password, then names a table that has just become free.
After every join and every freed table, an allocation engine seats waiting
parties at free tables. It prefers the table that wastes the fewest seats,
and among equally good pairs the party that has waited longest.

There are two variants of the bot:

- `restaurant.py` is the current one. It has an upserting waitlist, a seeded
  table set and the allocation engine.
- `app.py` is an earlier one. It appends every join to a log, records the
  table numbers waiters report free, and seats nobody.

The model covers both variants:

- the per-sender session state machine;
- the text normalisation it relies on (Python's `lower`, `strip`, `split`,
  `replace`, `isdigit`, `int`);
- the SQLite tables as in-memory sequences;
- the queries and updates on those tables;
- the allocation loop;
- the webhook handlers, which walk a payload and answer each message.

Modules:

- `Optional` and `Text` (text.dfy) hold the string built-ins.
- `Ordering` (ordering.dfy) holds the stable sort behind `ORDER BY` and
  `sorted`.
- `Sessions` and `Parsing` (sessions.dfy) hold the session type and the
  input parsing that both variants share.
- `Conversation`, `Store`, `Allocation`, `Webhook` and `Scenarios` model
  restaurant.py.
- `AppStore`, `AppConversation` and `AppWebhook` (app.dfy) model app.py.

Points where the code behaves differently from what a reader might expect:

- **Unknown table.** restaurant.py resets the waiter's session to
  customer/initial even when the table number is not found. The reply at
  line 376 asks the waiter to make sure the number is correct, which
  invites a retry, yet line 378 resets the session, so the retry lands in
  the default branch. The model follows the code.
- **Normalising a table number cannot fail.** Any input becomes a number.
  Digits get a "T" in front; anything else is upper-cased. Only the lookup
  can fail.
- **The tie-break on timestamps never fires.** When a customer's best
  table is chosen, the comparison on timestamps (lines 285-288) compares
  the customer with its own earlier candidate, so it is never true. Each
  customer's candidate is the first table with the fewest wasted seats, in
  capacity order. First-come-first-served takes effect only in the sort of
  the candidates (line 296).
- **Each pass seats exactly one pair.** The execution walk of one pass
  starts with nothing claimed and breaks after the first seating. So each
  pass seats the head of the sorted candidates, then starts over.
- **app.py's table test.** The test (line 189) has a second half,
  `startswith("table") and ...isdigit()`. It can be reached only because
  `str.replace` does not rescan: "tatableble5" loses its inner "table" and
  leaves "table5". That residue is accepted and saved with the word in it.
- **app.py refuses tagged numbers.** app.py refuses "t5", which
  restaurant.py accepts as "T5".
- **app.py aborts on oversized counts.** app.py saves any integer count,
  but SQLite's driver cannot bind one outside the 64-bit INTEGER range
  (app.py:98-101). The OverflowError is neither a `sqlite3.Error` nor a
  ValueError, so it escapes both handlers: "john, 9223372036854775808"
  gets no reply, writes no row and leaves the sender at the name prompt.
- **Timestamps are parameters.** `CURRENT_TIMESTAMP` is passed as a natural
  number `now`. Rows with equal timestamps keep their stored order (stable
  sort).

## Model

| member | source | states |
|---|---|---|
| Text.Lower | restaurant.py:349 | lower-casing keeps the length, maps each upper-case letter to its lower-case partner (32 code points up), leaves no upper-case letter and touches nothing else |
| Text.Upper | restaurant.py:370 | upper-casing keeps the length, maps each lower-case letter to its upper-case partner (32 code points down), leaves no lower-case letter and touches nothing else |
| Text.Strip | restaurant.py:349 | the result is the slice of the input between the leading and trailing whitespace runs, and begins and ends with non-space |
| Text.StripUntouched | restaurant.py:349 | text with no whitespace at either end is stripped to itself |
| Text.StripLowerCommute | restaurant.py:349 | stripping and lower-casing commute, so `text.lower().strip()` equals the text stripped and then lower-cased |
| Text.Split | restaurant.py:387 | `split(",")` gives one piece more than there are commas, no piece holds a comma, and joining the pieces gives back the text |
| Text.RemoveAll | restaurant.py:366 | `replace(word, "")` never lengthens the text and keeps only characters of the input (as a multiset) |
| Text.RemoveAllAbsent | restaurant.py:366 | `replace` of a word that does not occur changes nothing |
| Text.RemoveAllLeading | restaurant.py:366 | a leading occurrence of the word is dropped and the scan continues after it |
| Text.RemoveAllCanLeaveOccurrence | app.py:188-189 | since `replace` does not rescan, "tatableble…" still holds "table" after every "table" is removed |
| Text.ParseInt | restaurant.py:388 | `int()` accepts exactly a run of digits with an optional sign; unsigned or "+" it gives their value, after "-" the negated value, and a negative value only ever comes from a minus sign |
| Text.ParseIntRoundTrip | restaurant.py:388 | `int()` of any integer's decimal text gives that integer back |
| Sessions.ValidIffRoleMatchesState | restaurant.py:352-385 | a session is one of the four reachable pairs exactly when the role is waiter in the two waiter states |
| Parsing.Normalize | restaurant.py:349 | the interpreted text has no upper-case letter and no whitespace at either end |
| Parsing.ParseNameCount | restaurant.py:386-388 | a parse succeeds only with exactly one comma, and then exactly when the stripped part after it is an integer; the name returned is the stripped part before the comma and the count is the integer of the stripped part after it |
| Parsing.ParseNameCountRoundTrip | restaurant.py:387-388 | "name, N" parses back to the name and N |
| Parsing.ParseNameCountSplits | restaurant.py:386-388 | for comma-free a and b, "a,b" parses to (strip a, int of strip b) when b is an integer and fails otherwise |
| Parsing.TableResidue | restaurant.py:366 | the residue is no longer than the input and has no whitespace at either end |
| Parsing.TableResidueWithoutWord | restaurant.py:366 | text that does not contain "table" is only stripped |
| Parsing.TableResidueOfDigits | restaurant.py:366 | a bare number survives the removal of "table" and the strip unchanged |
| Parsing.TableResidueOfTableNumber | restaurant.py:366 | "table N" leaves exactly the digits N |
| Parsing.TaggedNumberResidue | restaurant.py:366 | "tN" contains no "table" and is left as it is |
| Conversation.NormalizeTable | restaurant.py:364-370 | a residue of digits becomes "T" plus the digits; any other residue is exactly its upper-cased form |
| Conversation.NormalizeTableForms | restaurant.py:364-370 | "N", "table N" and "tN" all name table "TN" |
| Conversation.Step | restaurant.py:351-408 | valid sessions stay valid; at most one store command; a command is issued exactly when the reply waits on its outcome, and it resets the session; a release comes only from an authenticated waiter; an enqueue comes only from a customer answering the name prompt, with a party of 1 to 6 |
| Conversation.JoinStep | restaurant.py:385-405 | the answer to the name prompt either queues a party of 1 to 6 and resets, or stays at the prompt with an error and no command |
| Conversation.WaiterLogin | restaurant.py:352-363 | "waiter" from initial asks for the password; the right password leads to the table prompt; any other text resets to customer/initial |
| Conversation.PasswordIgnoresCase | restaurant.py:349-359 | any message that lower-cases and strips to the password (for example "WAITER123 ") authenticates the waiter |
| Conversation.CustomerGreeting | restaurant.py:381-384 | "hi" from initial, whatever the role, starts the customer flow and asks for name and party size |
| Conversation.DefaultKeepsSession | restaurant.py:406-408 | a message that matches no branch gets the help reply and leaves the session as it was |
| Conversation.FreeTableAlwaysResets | restaurant.py:364-378 | at the table prompt every input requests exactly one release of the normalised number and resets the session |
| Conversation.NamePeopleLeavesOnlyOnEnqueue | restaurant.py:385-405 | at the name prompt the session moves if and only if the text parses with 1 <= count <= 6, and then it enqueues exactly that party |
| Conversation.NamePromptOutcome | restaurant.py:385-405 | every answer at the name prompt gets one of four outcomes: the format help when it is not one comma-separated name and integer, "must be positive" for a count of zero or less, "no tables for more than 6" for a count over six, and otherwise the party is queued and the session reset |
| Conversation.GreetingsIgnoredWhileJoining | restaurant.py:385-405 | "hi" and "waiter" at the name prompt are format errors, not restarts |
| Conversation.JoinAccepted | restaurant.py:385-401 | a well-formed "name, N" with 1 <= N <= 6 enqueues that name and N and resets |
| Conversation.JoinOutOfRange | restaurant.py:390-393 | a count <= 0 or > 6 gets the matching error and keeps the prompt |
| Store.FindPhone | restaurant.py:122-124 | the lookup finds the first entry with that phone number, or reports that none has it |
| Store.Enqueue | restaurant.py:104-147 | the upsert keeps the store valid, leaves one entry for the phone number carrying the new name, size and time, keeps the old id when there was one, and leaves every other entry as it was |
| Store.EnqueueTwiceKeepsOneEntry | restaurant.py:122-141 | joining twice from one phone number leaves one entry, with the first id and the second details |
| Store.Release | restaurant.py:149-177 | freeing reports success exactly when some table has the number; those tables become free with no occupant; nothing else changes; validity is kept |
| Store.ReleaseIdempotent | restaurant.py:162-172 | freeing the same number twice equals freeing it once, with the same report |
| Store.ReleaseFreeTableIsNoOp | restaurant.py:162-169 | freeing a table that is already free changes nothing and still reports success |
| Store.ReleaseMissingIsNoOp | restaurant.py:167-172 | freeing an unknown number changes nothing and reports failure |
| Store.ListWaiting | restaurant.py:179-202 | the waiting list is a permutation of the entries, ordered by timestamp |
| Store.FreeTables | restaurant.py:213 | exactly the tables whose status is free, and no more of them than there are tables |
| Store.FreeTablesCounts | restaurant.py:213 | the filter keeps each free table as often as the tables hold it and no table that is not free |
| Store.ListFree | restaurant.py:204-225 | exactly the free tables, ordered by capacity |
| Store.ListFreePermutation | restaurant.py:213 | the free-table list is a permutation of the free tables: each occurs as often as in the store |
| Store.Without | restaurant.py:247 | the delete removes exactly the entries with that id, and shrinks the list when one was there |
| Store.Seat | restaurant.py:227-256 | the table with the id becomes occupied by the entry, the entry leaves the queue, every other row is kept, validity is kept, and exactly that table leaves the free set |
| Store.InsertOrIgnore | restaurant.py:99 | after the insert the number has a table; an existing number leaves the store unchanged; a new one appends a free row with the next id |
| Store.InsertOrIgnoreValid | restaurant.py:99 | the insert keeps ids and numbers unique |
| Store.Seed | restaurant.py:97-99 | seeding leaves the waiting entries alone, keeps every existing table row in place, and appends no more rows than there are configured tables, each free with no occupant |
| Store.SeedValid | restaurant.py:97-99 | seeding keeps the store's constraints |
| Store.SeedCovers | restaurant.py:97-99 | after seeding, every configured number and every number the store had has a table |
| Store.SeedIdempotent | restaurant.py:97-100 | running the seeding twice adds no duplicates |
| Store.SeedFresh | restaurant.py:97-99 | seeding numbers that are all new appends them in order, free, with consecutive ids |
| Store.SeedRowsAt | restaurant.py:91-95 | row k of the seeded tables carries the k-th configured number and capacity |
| Store.InitStore | restaurant.py:91-100 | initialisation leaves a valid store with no waiting entries and the ten configured tables (T1-T4 seat 2, T5-T8 seat 4, T9-T10 seat 6), all free |
| Ordering.SortBy | restaurant.py:296 | the sort returns a permutation of its input, ordered by the key, whose head is the first element with the least key |
| Allocation.ScanNextShape | restaurant.py:277-288 | one step of the inner loop keeps the candidate or replaces it by the current table, only when that table fits; a kept candidate's waste never grows; from no candidate, a candidate appears exactly when the table fits |
| Allocation.ScanTablesPicks | restaurant.py:276-288 | the inner loop never loses a candidate once it has one and never lets its waste grow; it ends with its starting candidate or with a candidate for a scanned table that fits the party, carrying that table's waste and the party's timestamp |
| Allocation.ScanTablesFindsFirstBest | restaurant.py:276-288 | the inner loop ends with the first table, in the given order, that fits the party with the fewest wasted seats, or with none when nothing fits |
| Allocation.BestFit | restaurant.py:272-291 | a party's candidate is none when nothing fits, otherwise its first least-waste table |
| Allocation.Candidates | restaurant.py:270-291 | the candidate list holds exactly the best fit of each waiting party that has one |
| Allocation.Pass | restaurant.py:266-314 | a pass seats nobody exactly when no waiting party fits a free table; otherwise it picks a waiting party and a free table it fits, with the fewest wasted seats over all such pairs and, among those, the earliest timestamp |
| Allocation.PassChoiceOptimal | restaurant.py:293-314 | the head of the sorted candidates beats every fitting party/table pair on (waste, timestamp) |
| Allocation.SeatShrinks | restaurant.py:241-248 | seating removes exactly one waiting entry and one free table and moves no table |
| Allocation.Allocate | restaurant.py:258-320 | the recursion ends; afterwards no waiting party fits a free table, the store is valid, every remaining entry was waiting before, and each seating removes one entry and one free table; the table layout is kept |
| Allocation.NothingToSeat | restaurant.py:266-320 | with no waiting party or no free table, allocation changes nothing |
| Allocation.AllocateSeatsChoice | restaurant.py:303-318 | a pass seats its choice and then allocation starts over |
| Allocation.AllocateAccounts | restaurant.py:258-320 | nobody is lost: each party that was waiting is still waiting afterwards, or a seating names its phone number and name |
| Allocation.AccountsPass | restaurant.py:303-318 | the first pass keeps that accounting, given that the rest of the run keeps it |
| Allocation.AccountsStep | restaurant.py:241-251 | the seated party is named by the first seating, and every other party carries over to the rest of the run |
| Allocation.SameIdSameEntry | restaurant.py:66 | two waiting entries with the same id are the same entry |
| Scenarios.EarlierPartySeatedFirst | restaurant.py:258-320 | of two equal parties and one free table that fits, the earlier party is seated and the later one keeps waiting |
| Scenarios.EarlierPartyChosen | restaurant.py:293-314 | in that situation the pass chooses the earlier party and the free table |
| Scenarios.OnlyLaterPartyLeft | restaurant.py:306-318 | after that seating no free table is left, so the later party is not seated |
| Scenarios.ReleasedTableSeatsAlone | restaurant.py:372-374 | freeing a table that fits the only waiting party seats that party there and empties the queue |
| Webhook.Notices | restaurant.py:250-251 | one notification per seating, in seating order, addressed to the party and naming the table |
| Webhook.Run | restaurant.py:372-401 | a join is confirmed and then allocation runs; a found table is confirmed and then allocation runs; an unknown table changes nothing and is reported; validity is kept, and so is the absence of a fitting pair |
| Webhook.RunJoinAllocates | restaurant.py:396-401 | a join sends the confirmation, then one notification per seating of the allocation run over the updated queue |
| Webhook.RunJoinQueuesOrSeats | restaurant.py:396-401 | after a join the party is either waiting under its phone number, name, size and arrival time, or a notification tells it that its table is ready |
| Webhook.WaitingOrNotified | restaurant.py:250-251 | a party that is still waiting, or that a seating names, is visible in the effect that sends those seatings |
| Webhook.Handle | restaurant.py:341-411 | one message: a new sender gets a fresh session; other senders' sessions are untouched; the sender always gets the first reply; a non-text message gets the text-only notice and changes nothing; a text message moves the session as the conversation says; the invariant (valid sessions, valid store, nothing left to seat) is kept |
| Webhook.HandleRunsCommand | restaurant.py:372-401 | a message whose transition asks for a command is answered by running that command |
| Webhook.RunReleaseFound | restaurant.py:372-376 | freeing an existing table sends the confirmation, then one notification per seating of the allocation run |
| Webhook.ChangeEvents | restaurant.py:335-337 | of each change only the first message is taken, and only when the change is about messages and has any |
| Webhook.Events | restaurant.py:333-339 | a payload whose object is not a WhatsApp business account yields no messages; otherwise the messages yielded are exactly those its entries' changes carry |
| Webhook.HandleAll | restaurant.py:334-411 | handling a request's messages in order keeps the invariant and answers every message at least once |
| Webhook.HandleAllOthers | restaurant.py:341-345 | a sender with no message in the request keeps its session, or keeps having none |
| Webhook.HandlePayload | restaurant.py:329-339 | a foreign payload changes nothing and sends nothing; any payload keeps the invariant |
| Webhook.FreeingTableSeatsWaitingParty | restaurant.py:364-378 | a waiter who names a fitting table as "T" plus digits gets the confirmation, the waiting party is seated there and notified, and the waiter's session resets |
| Webhook.ReleaseSeatsOnlyParty | restaurant.py:372-374 | freeing a table that fits the only waiting party sends exactly the confirmation and that party's notification, and empties the queue |
| AppStore.SaveUser | app.py:86-107 | the plain insert writes exactly when the count fits SQLite's 64-bit INTEGER; then it keeps every earlier row, adds the new row last with the phone, name and count and gives the phone number one row more, leaving the tables and validity intact |
| AppStore.SaveUserTwiceDuplicates | app.py:98-101 | the same phone number joining twice, with counts SQLite can store, has two rows more |
| AppStore.FindNumber | app.py:122-123 | the lookup finds a row with the number, or none has it |
| AppStore.SaveFreeTable | app.py:109-143 | reporting a table free leaves the number present, and free wherever it appears; a row is added only for a new number; every other row is unchanged; validity is kept |
| AppStore.SaveFreeTableIdempotent | app.py:122-138 | reporting the same table free twice equals reporting it once |
| AppConversation.AcceptTable | app.py:189 | accepted exactly when the residue is all digits, or starts with "table" and what follows strips to digits; an accepted residue holds a digit |
| AppConversation.Step | app.py:170-216 | valid sessions stay valid; a write resets the session; a table is saved only from an authenticated waiter, only when its residue passes the digit test, and as that residue; a user row is saved only from the name prompt, with the parsed name and count |
| AppConversation.WaiterLogin | app.py:178-185 | the right password leads to the table prompt; any other text resets to customer/initial |
| AppConversation.Greetings | app.py:174-202 | "waiter" from initial asks for the password as a waiter; "hi" from initial asks a customer for name and party size |
| AppConversation.DefaultKeepsSession | app.py:214-216 | a message that matches no branch gets the help reply and leaves the session as it was |
| AppConversation.TableInputOutcome | app.py:186-196 | at the table prompt, input whose residue passes is saved as the residue and resets the session; anything else is refused and the prompt stays |
| AppConversation.DigitFormsSavedBare | app.py:187-191 | "N" and "table N" are saved as the bare digits N, with no "T" |
| AppConversation.DigitResidueSaved | app.py:187-191 | an input whose residue is all digits is saved as that residue |
| AppConversation.ResidueKeepsTableWord | app.py:188 | the residue of "tatableble" plus digits is "table" plus the digits |
| AppConversation.TaggedNumberRefused | app.py:188-196 | "tN" is refused and the waiter stays at the prompt |
| AppConversation.ResidualTableWordSaved | app.py:188-191 | "tatableble" followed by digits is accepted and saved as "table" plus the digits |
| AppConversation.AnyCountSaved | app.py:203-211 | the step asks to save any integer count, including zero, negative and over six |
| AppConversation.NamePromptOutcome | app.py:203-213 | at the name prompt a parsed pair resets the session and asks to save that name and count with the Saved reply; any other text gets the format help and stays at the prompt |
| AppWebhook.Apply | app.py:190-208 | a join writes exactly when its count fits SQLite's INTEGER, and then keeps every earlier user row and appends one row with the sender's phone, name and count, leaving the tables alone; a table report always writes, leaves the number present and free wherever it appears, adds a row only for a new number, keeps every other row, keeps ids and numbers in place and leaves the users alone; validity is kept |
| AppWebhook.Handle | app.py:163-219 | other senders' sessions are untouched; a non-text message gets the text-only notice, changes nothing and gives the sender its current or a fresh session; a text message moves the session and gets the reply the conversation gives, after applying exactly the write it asks for; when that write fails the request ends with no reply, the database as it was and the sender's session as it arrived; valid sessions and a valid database stay valid |
| AppWebhook.JoinCountBound | app.py:203-213 | a join whose count SQLite cannot store gets no reply, writes nothing and leaves the sender at the name prompt; one whose count fits is saved, acknowledged and resets the session |

## Left out

- Sending messages: HTTP calls to the WhatsApp API (`send_message`) and the
  literal reply texts. Replies are message kinds in the order they are sent.
- The GET verification route (restaurant.py:415-425, app.py:223 onwards),
  environment loading and the Flask start-up. These are configuration, not
  logic.
- Database errors. Each `sqlite3.Error` branch is left out, together with
  what it leads to: a `None` user id, the "issue adding you" reply and an
  unchanged session. A failing `seat_customer` (restaurant.py:253-254)
  would also leave the pair in place while the pass still counts as a
  seating, so the recursion at restaurant.py:317-318 would retry the same
  pair until Python's recursion limit ends the request. The model's store
  never fails, except for app.py's OverflowError on a count outside
  SQLite's 64-bit INTEGER, which is modelled (AppStore.SaveUser, AppWebhook.Handle). restaurant.py cannot
  reach it: it refuses counts outside 1 to 6 before writing.
- Connections, commits and concurrency between requests. Each request is
  handled as one atomic step on the world state.
- The foreign key on `occupied_by_user_id` (ON DELETE SET NULL,
  restaurant.py:85). SQLite enforces foreign keys only after
  `PRAGMA foreign_keys = ON`, and neither file issues it. So when
  `seat_customer` (restaurant.py:242-247) marks the table occupied by a user
  and then deletes that user, the occupant id is left dangling. The model
  does the same: a seated table's occupant is `Some(id)` of an entry that
  is no longer in the queue.
- The `occupied_timestamp` and `timestamp` columns of `tables`. Nothing
  reads them.
- app.py's `users.timestamp` and `free_tables.timestamp` columns
  (app.py:69, app.py:79). They only take their default, and nothing reads
  them.
- The time source. `CURRENT_TIMESTAMP` (second granularity) is a `now`
  parameter.
- The `data` dictionary in each session. It is always empty.
- The `print` logging.
- Non-ASCII text. `lower`/`upper` change only ASCII letters, and
  `isdigit` and `int` accept only ASCII digits. Python also case-maps and
  accepts other Unicode letters and digits, and `int` accepts underscores
  between digits. `strip` does use Python's full whitespace set.
- app.py's walk over the payload (app.py:155-161). It is the same as
  restaurant.py's and is modelled once, by Webhook.Events. AppWebhook.Handle
  takes one message.
- AppWebhook.Handle: when app.py's request aborts on an oversized count,
  Flask answers with an error instead of `EVENT_RECEIVED` and the messages
  after it in the same payload are not handled. The model handles one
  message and reports the abort as no reply.
- Text.ParseInt: Python's `int()` refuses a numeral of more than 4300
  digits with ValueError (the default string-conversion limit), so both
  files reply with the format help. The model parses any length, so for
  such input restaurant.py's model replies CountTooLarge or
  CountNotPositive, and app.py's model aborts on SQLite's range.
- Parsing.TableResidue: its contract states only the length bound and the
  stripped ends. Its content is stated for text without "table"
  (Parsing.TableResidueWithoutWord), bare numbers, "table N" and tagged
  numbers; for other text it inherits Text.RemoveAll's gap.
- Store.ListFree: `ORDER BY capacity` (restaurant.py:213) leaves the order of
  equal capacities to SQLite. The model keeps stored order for ties, and
  BestFit's "first least-waste table" depends on that order.
- Store.ListWaiting: `ORDER BY timestamp` leaves the order of equal
  timestamps to SQLite. The model keeps stored order for ties, so it states
  only the ordering and the permutation.
- Text.RemoveAll: its contract states that the text does not grow and
  keeps only characters of the input. It does not say which occurrences
  go. That is stated by Text.RemoveAllAbsent, Text.RemoveAllLeading and
  Text.RemoveAllCanLeaveOccurrence.
- Webhook.HandleAll: it states the invariant and that every message gets at
  least one reply. The per-message outcome is stated by Webhook.Handle, and
  the frame on other senders by Webhook.HandleAllOthers.

=== FILE: allocation.dfy ===
/**
 `attempt_seating_allocation` of restaurant.py: each pass finds, for every
 waiting party, its best-fitting free table, ranks those candidates by
 (wasted seats, timestamp), seats the first one and starts over, until no
 waiting party fits any free table.
 */
module Allocation {
  import opened Optional
  import opened Ordering
  import opened Store

  /** `(wasted_seats, customer_timestamp, customer, table)`. */
  datatype Candidate = Candidate(wasted: int, enqueuedAt: nat, entry: Entry, table: Table)

  predicate Fits(e: Entry, t: Table) { t.capacity >= e.partySize }

  function Waste(e: Entry, t: Table): int { t.capacity - e.partySize }

  /** Position `j` holds the first table of `free[..n]` with the least waste
      among those that fit party `e`. */
  ghost predicate IsFirstBest(e: Entry, free: seq<Table>, n: nat, j: int) {
    && 0 <= j < n <= |free|
    && Fits(e, free[j])
    && (forall k :: 0 <= k < n && Fits(e, free[k]) ==> Waste(e, free[j]) <= Waste(e, free[k]))
    && (forall k :: 0 <= k < j && Fits(e, free[k]) ==> Waste(e, free[k]) > Waste(e, free[j]))
  }

  /** `best` is the candidate for `e` after scanning `free[..n]`: none when
      nothing fits, otherwise the first least-waste table. */
  ghost predicate BestAmong(e: Entry, free: seq<Table>, n: nat, best: Option<Candidate>)
    requires n <= |free|
  {
    && (best.None? <==> forall k :: 0 <= k < n ==> !Fits(e, free[k]))
    && (best.Some? ==> exists j :: IsFirstBest(e, free, n, j)
                                  && best.value == Candidate(Waste(e, free[j]), e.enqueuedAt, e, free[j]))
  }

  /** One iteration of the inner loop: table `t` replaces the candidate
      when it fits with strictly fewer wasted seats; `None` plays the part
      of the `float('inf')` starting minimum. */
  function ScanNext(e: Entry, t: Table, best: Option<Candidate>): Option<Candidate> {
    if t.capacity >= e.partySize then
      var w := t.capacity - e.partySize;
      if best.None? || w < best.value.wasted then Some(Candidate(w, e.enqueuedAt, e, t))
      // the FCFS tie-break compares the customer with its own earlier candidate
      else if w == best.value.wasted && e.enqueuedAt < best.value.enqueuedAt then
        Some(Candidate(w, e.enqueuedAt, e, t))
      else best
    else best
  }

  /** The inner loop over the free tables for one customer. */
  function ScanTables(e: Entry, free: seq<Table>, i: nat, best: Option<Candidate>): Option<Candidate>
    requires i <= |free|
    decreases |free| - i
  {
    if i == |free| then best else ScanTables(e, free, i + 1, ScanNext(e, free[i], best))
  }

  /** One step keeps the candidate or replaces it by a candidate for `t`,
      only when `t` fits; a kept candidate's waste never grows. */
  lemma ScanNextShape(e: Entry, t: Table, best: Option<Candidate>)
    ensures var r := ScanNext(e, t, best);
            && (r == best || (Fits(e, t) && r == Some(Candidate(Waste(e, t), e.enqueuedAt, e, t))))
            && (best.Some? ==> r.Some? && r.value.wasted <= best.value.wasted)
            && (best.None? ==> (r.Some? <==> Fits(e, t)))
  {
  }

  /** The inner loop ends with the candidate it started from, or with a
      candidate for one of the tables it scanned, which fits the party; a
      candidate, once found, is never lost and its waste never grows. */
  lemma {:induction false} ScanTablesPicks(e: Entry, free: seq<Table>, i: nat, best: Option<Candidate>)
    requires i <= |free|
    ensures var r := ScanTables(e, free, i, best);
            && (best.Some? ==> r.Some? && r.value.wasted <= best.value.wasted)
            && (|| r == best
                || exists k :: i <= k < |free| && Fits(e, free[k])
                               && r == Some(Candidate(Waste(e, free[k]), e.enqueuedAt, e, free[k])))
    decreases |free| - i
  {
    if i < |free| {
      var next := ScanNext(e, free[i], best);
      ScanNextShape(e, free[i], best);
      ScanTablesPicks(e, free, i + 1, next);
      assert ScanTables(e, free, i, best) == ScanTables(e, free, i + 1, next);
    }
  }

  /** One iteration keeps the candidate the first least-waste table seen so
      far; the tie branch never fires, because the candidate already
      carries this customer's own timestamp. */
  lemma ScanStep(e: Entry, free: seq<Table>, i: nat, best: Option<Candidate>)
    requires i < |free| && BestAmong(e, free, i, best)
    ensures BestAmong(e, free, i + 1, ScanNext(e, free[i], best))
  {
    var t := free[i];
    if best.Some? {
      var j :| IsFirstBest(e, free, i, j)
               && best.value == Candidate(Waste(e, free[j]), e.enqueuedAt, e, free[j]);
      if Fits(e, t) && Waste(e, t) < best.value.wasted {
        assert IsFirstBest(e, free, i + 1, i);
      } else {
        assert IsFirstBest(e, free, i + 1, j);
      }
    } else if Fits(e, t) {
      assert IsFirstBest(e, free, i + 1, i);
    }
  }

  lemma {:induction false} ScanTablesFindsFirstBest(e: Entry, free: seq<Table>, i: nat, best: Option<Candidate>)
    requires i <= |free| && BestAmong(e, free, i, best)
    ensures BestAmong(e, free, |free|, ScanTables(e, free, i, best))
    decreases |free| - i
  {
    if i < |free| {
      var next := ScanNext(e, free[i], best);
      ScanStep(e, free, i, best);
      ScanTablesFindsFirstBest(e, free, i + 1, next);
      var r := ScanTables(e, free, i + 1, next);
      assert BestAmong(e, free, |free|, r);
      assert ScanTables(e, free, i, best) == r;
    }
  }

  /** `best_match_for_customer` for one waiting party: none when no free
      table is large enough, otherwise the first table, in the given order,
      with the fewest wasted seats. */
  function BestFit(e: Entry, free: seq<Table>): (r: Option<Candidate>)
    ensures BestAmong(e, free, |free|, r)
  {
    ScanTablesFindsFirstBest(e, free, 0, None);
    ScanTables(e, free, 0, None)
  }

  /** `potential_allocations`: the best candidate of each waiting party that
      has one, in waiting order. */
  function Candidates(waiting: seq<Entry>, free: seq<Table>): (pool: seq<Candidate>)
    ensures forall c :: c in pool ==> c.entry in waiting && BestFit(c.entry, free) == Some(c)
    ensures forall e :: e in waiting && BestFit(e, free).Some? ==> BestFit(e, free).value in pool
  {
    if |waiting| == 0 then []
    else
      var rest := Candidates(waiting[1..], free);
      match BestFit(waiting[0], free)
      case None => rest
      case Some(c) => [c] + rest
  }

  /** The sort key `(wasted_seats, customer_timestamp)`. */
  function CandidateKey(c: Candidate): (int, int) { (c.wasted, c.enqueuedAt) }

  /** Free tables and waiting entries are settled when no party fits any free table. */
  ghost predicate Settled(st: Store) {
    forall e, t :: e in st.entries && t in st.tables && t.status == Free ==> !Fits(e, t)
  }

  /** `c` pairs a waiting party with a free table it fits, with the fewest
      wasted seats over ALL such pairs, and among those the earliest
      timestamp. */
  ghost predicate BestPair(st: Store, c: Candidate) {
    && c.entry in st.entries && c.table in st.tables && c.table.status == Free
    && Fits(c.entry, c.table)
    && c.wasted == Waste(c.entry, c.table) && c.enqueuedAt == c.entry.enqueuedAt
    && forall e, t :: e in st.entries && t in st.tables && t.status == Free && Fits(e, t) ==>
         && c.wasted <= Waste(e, t)
         && (c.wasted == Waste(e, t) ==> c.enqueuedAt <= e.enqueuedAt)
  }

  /** The pair one allocation pass seats, if any: a waiting party and a free
      table it fits, with the fewest wasted seats over ALL such pairs, and
      among those the earliest timestamp. */
  function Pass(st: Store): (r: Option<Candidate>)
    ensures r.None? <==> Settled(st)
    ensures r.Some? ==> BestPair(st, r.value)
  {
    var waiting := ListWaiting(st);
    var free := ListFree(st);
    var pool := Candidates(waiting, free);
    WaitingMembers(st);
    PoolCoversFits(st, waiting, free, pool);
    if |pool| == 0 then None
    else
      var ranked := SortBy(pool, CandidateKey);
      // Nothing is claimed yet when the walk starts, so its first candidate
      // is seated, and the `break` ends the walk there.
      var c := ranked[0];
      PassChoiceOptimal(st, waiting, free, pool);
      Some(c)
  }

  lemma WaitingMembers(st: Store)
    ensures forall e :: e in ListWaiting(st) <==> e in st.entries
  {
    forall e ensures e in ListWaiting(st) <==> e in st.entries {
      assert e in ListWaiting(st) <==> e in multiset(ListWaiting(st));
      assert e in st.entries <==> e in multiset(st.entries);
    }
  }

  /** Every candidate in the pool is a waiting party and a free table it fits. */
  lemma PoolMembers(st: Store, waiting: seq<Entry>, free: seq<Table>, pool: seq<Candidate>)
    requires forall e :: e in waiting ==> e in st.entries
    requires forall t :: t in free ==> t in st.tables && t.status == Free
    requires forall c :: c in pool ==> c.entry in waiting && BestFit(c.entry, free) == Some(c)
    ensures forall c :: c in pool ==>
              (&& c.entry in st.entries && c.table in st.tables
               && c.table.status == Free && Fits(c.entry, c.table)
               && c.wasted == Waste(c.entry, c.table)
               && c.enqueuedAt == c.entry.enqueuedAt)
  {
    forall c | c in pool
      ensures && c.entry in st.entries && c.table in st.tables
              && c.table.status == Free && Fits(c.entry, c.table)
              && c.wasted == Waste(c.entry, c.table) && c.enqueuedAt == c.entry.enqueuedAt
    {
      var j :| IsFirstBest(c.entry, free, |free|, j)
               && c == Candidate(Waste(c.entry, free[j]), c.entry.enqueuedAt, c.entry, free[j]);
      assert free[j] in free;
    }
  }

  /** A fitting pair puts a candidate in the pool: the pool holds the best
      fit of every waiting party, and every free table is offered. */
  lemma PoolNonEmpty(st: Store, waiting: seq<Entry>, free: seq<Table>, pool: seq<Candidate>)
    requires forall e :: e in st.entries ==> e in waiting
    requires forall t :: t in st.tables && t.status == Free ==> t in free
    requires forall e :: e in waiting && BestFit(e, free).Some? ==> BestFit(e, free).value in pool
    requires !Settled(st)
    ensures |pool| > 0
  {
    var e, t :| e in st.entries && t in st.tables && t.status == Free && Fits(e, t);
    assert t in free;
    var k :| 0 <= k < |free| && free[k] == t;
    assert BestFit(e, free).Some?;
    assert BestFit(e, free).value in pool;
  }

  /** The pool is empty exactly when nothing fits. */
  lemma PoolCoversFits(st: Store, waiting: seq<Entry>, free: seq<Table>, pool: seq<Candidate>)
    requires forall e :: e in waiting <==> e in st.entries
    requires forall t :: t in free <==> t in st.tables && t.status == Free
    requires forall c :: c in pool ==> c.entry in waiting && BestFit(c.entry, free) == Some(c)
    requires forall e :: e in waiting && BestFit(e, free).Some? ==> BestFit(e, free).value in pool
    ensures |pool| == 0 <==> Settled(st)
    ensures forall c :: c in pool ==>
              (&& c.entry in st.entries && c.table in st.tables
               && c.table.status == Free && Fits(c.entry, c.table)
               && c.wasted == Waste(c.entry, c.table)
               && c.enqueuedAt == c.entry.enqueuedAt)
  {
    PoolMembers(st, waiting, free, pool);
    if !Settled(st) {
      PoolNonEmpty(st, waiting, free, pool);
    }
    if |pool| > 0 {
      var c := pool[0];
      assert c in pool;
      assert c.entry in st.entries && c.table in st.tables && c.table.status == Free && Fits(c.entry, c.table);
    }
  }

  /** The head of the ranked pool beats every fitting pair, when the pool
      holds the best fit of every waiting party and every free table is
      offered. */
  lemma PassChoiceOptimal(st: Store, waiting: seq<Entry>, free: seq<Table>, pool: seq<Candidate>)
    requires forall e :: e in st.entries ==> e in waiting
    requires forall t :: t in st.tables && t.status == Free ==> t in free
    requires forall e :: e in waiting && BestFit(e, free).Some? ==> BestFit(e, free).value in pool
    requires |pool| > 0
    ensures var m := FirstMinIndex(pool, CandidateKey);
            forall e, t :: e in st.entries && t in st.tables && t.status == Free && Fits(e, t) ==>
              && pool[m].wasted <= Waste(e, t)
              && (pool[m].wasted == Waste(e, t) ==> pool[m].enqueuedAt <= e.enqueuedAt)
  {
    var m := FirstMinIndex(pool, CandidateKey);
    forall e, t | e in st.entries && t in st.tables && t.status == Free && Fits(e, t)
      ensures pool[m].wasted <= Waste(e, t) && (pool[m].wasted == Waste(e, t) ==> pool[m].enqueuedAt <= e.enqueuedAt)
    {
      assert t in free;
      HeadBeatsPair(e, t, free, pool, m);
    }
  }

  /** The head of the ranked pool beats a party `e` and a free table it
      fits, because it beats the best candidate of `e`. */
  lemma HeadBeatsPair(e: Entry, t: Table, free: seq<Table>, pool: seq<Candidate>, m: nat)
    requires t in free && Fits(e, t)
    requires BestFit(e, free).Some? ==> BestFit(e, free).value in pool
    requires |pool| > 0 && m == FirstMinIndex(pool, CandidateKey)
    ensures pool[m].wasted <= Waste(e, t) && (pool[m].wasted == Waste(e, t) ==> pool[m].enqueuedAt <= e.enqueuedAt)
  {
    var k :| 0 <= k < |free| && free[k] == t;
    var ce := BestFit(e, free).value;
    var j :| IsFirstBest(e, free, |free|, j) && ce == Candidate(Waste(e, free[j]), e.enqueuedAt, e, free[j]);
    assert ce.wasted <= Waste(e, t);
    var i :| 0 <= i < |pool| && pool[i] == ce;
    assert KeyLe(CandidateKey(pool[m]), CandidateKey(pool[i]));
  }

  /** The notification `seat_customer` sends: to whom, their name, which table. */
  datatype Seating = Seating(phone: string, name: string, number: string)

  datatype Allocated = Allocated(store: Store, seated: seq<Seating>)

  /** Two table lists with the same tables in the same places, statuses aside. */
  ghost predicate SameLayout(a: seq<Table>, b: seq<Table>) {
    && |a| == |b|
    && forall k :: 0 <= k < |a| ==> a[k].id == b[k].id && a[k].number == b[k].number && a[k].capacity == b[k].capacity
  }

  /** The full allocation run: passes until one seats nobody. Each pass
      removes one waiting entry and one free table. */
  function Allocate(st: Store): (r: Allocated)
    requires Valid(st)
    ensures Valid(r.store)
    ensures Settled(r.store)
    ensures forall e :: e in r.store.entries ==> e in st.entries
    ensures |r.store.entries| + |r.seated| == |st.entries|
    ensures FreeIds(r.store) <= FreeIds(st)
    ensures |FreeIds(r.store)| + |r.seated| == |FreeIds(st)|
    ensures SameLayout(st.tables, r.store.tables)
    decreases |st.entries|
  {
    match Pass(st)
    case None => Allocated(st, [])
    case Some(c) =>
      var next := Seat(st, c.entry.id, c.table.id);
      SeatShrinks(st, c.entry, c.table);
      var rest := Allocate(next);
      RunComposes(st, next, rest, Seating(c.entry.phone, c.entry.name, c.table.number));
      Allocated(rest.store, [Seating(c.entry.phone, c.entry.name, c.table.number)] + rest.seated)
  }

  /** One seating followed by the rest of the run is a run: the counts add
      up, free tables only go, and the layout is kept. */
  lemma RunComposes(st: Store, next: Store, rest: Allocated, s: Seating)
    requires |next.entries| == |st.entries| - 1
    requires forall x :: x in next.entries ==> x in st.entries
    requires FreeIds(next) <= FreeIds(st) && |FreeIds(next)| == |FreeIds(st)| - 1
    requires SameLayout(st.tables, next.tables)
    requires forall e :: e in rest.store.entries ==> e in next.entries
    requires |rest.store.entries| + |rest.seated| == |next.entries|
    requires FreeIds(rest.store) <= FreeIds(next)
    requires |FreeIds(rest.store)| + |rest.seated| == |FreeIds(next)|
    requires SameLayout(next.tables, rest.store.tables)
    ensures var r := Allocated(rest.store, [s] + rest.seated);
            && (forall e :: e in r.store.entries ==> e in st.entries)
            && |r.store.entries| + |r.seated| == |st.entries|
            && FreeIds(r.store) <= FreeIds(st)
            && |FreeIds(r.store)| + |r.seated| == |FreeIds(st)|
            && SameLayout(st.tables, r.store.tables)
  {
  }

  /** Seating a waiting party at a free table takes exactly one entry and
      one free table away, and moves no table. */
  lemma SeatShrinks(st: Store, e: Entry, t: Table)
    requires Valid(st) && e in st.entries && t in st.tables && t.status == Free
    ensures var r := Seat(st, e.id, t.id);
            && Valid(r)
            && |r.entries| == |st.entries| - 1
            && (forall x :: x in r.entries ==> x in st.entries)
            && FreeIds(r) <= FreeIds(st)
            && |FreeIds(r)| == |FreeIds(st)| - 1
            && SameLayout(st.tables, r.tables)
  {
    var k :| 0 <= k < |st.entries| && st.entries[k] == e;
    WithoutUniqueLength(st.entries, k);
    assert t.id in FreeIds(st);
  }

  /** A pass with no waiting entries or no free tables seats nobody and
      changes nothing. */
  lemma NothingToSeat(st: Store)
    requires Valid(st)
    requires |st.entries| == 0 || forall k :: 0 <= k < |st.tables| ==> st.tables[k].status == Occupied
    ensures Allocate(st) == Allocated(st, [])
  {
    assert Settled(st);
  }

  /** A pass that chooses a pair seats it, then allocation starts over. */
  lemma AllocateSeatsChoice(st: Store)
    requires Valid(st)
    ensures Pass(st).Some? ==>
              var c := Pass(st).value;
              var next := Seat(st, c.entry.id, c.table.id);
              Allocate(st).seated == [Seating(c.entry.phone, c.entry.name, c.table.number)] + Allocate(next).seated
              && Allocate(st).store == Allocate(next).store
  {
  }

  /** Some seating goes to this party's phone number under its name. */
  ghost predicate SeatedIn(seated: seq<Seating>, e: Entry) {
    exists k :: 0 <= k < |seated| && seated[k].phone == e.phone && seated[k].name == e.name
  }

  /** No party is lost: every waiting party is still waiting after the
      allocation run, or one of its seatings notifies it. */
  lemma {:induction false} AllocateAccounts(st: Store)
    requires Valid(st)
    ensures forall e :: e in st.entries ==> e in Allocate(st).store.entries || SeatedIn(Allocate(st).seated, e)
    decreases |st.entries|
  {
    match Pass(st)
    case None =>
    case Some(c) =>
      var next := Seat(st, c.entry.id, c.table.id);
      SeatShrinks(st, c.entry, c.table);
      AllocateAccounts(next);
      AccountsPass(st, c, next);
  }

  /** The first pass of a run, given that the rest of the run loses nobody. */
  lemma AccountsPass(st: Store, c: Candidate, next: Store)
    requires Valid(st) && Pass(st) == Some(c) && next == Seat(st, c.entry.id, c.table.id)
    requires Valid(next) && |next.entries| < |st.entries|
    requires forall e :: e in next.entries ==> e in Allocate(next).store.entries || SeatedIn(Allocate(next).seated, e)
    ensures forall e :: e in st.entries ==> e in Allocate(st).store.entries || SeatedIn(Allocate(st).seated, e)
  {
    var a, rest := Allocate(st), Allocate(next);
    assert a == Allocated(rest.store, [Seating(c.entry.phone, c.entry.name, c.table.number)] + rest.seated);
    AccountsStep(st, c, next, a, rest);
  }

  /** One seating: the seated party is named by the first notice, and
      every other party is carried over to the rest of the run. */
  lemma AccountsStep(st: Store, c: Candidate, next: Store, a: Allocated, rest: Allocated)
    requires DistinctEntries(st.entries) && c.entry in st.entries
    requires forall e :: e in next.entries <==> e in st.entries && e.id != c.entry.id
    requires a.store == rest.store
    requires a.seated == [Seating(c.entry.phone, c.entry.name, c.table.number)] + rest.seated
    requires forall e :: e in next.entries ==> e in rest.store.entries || SeatedIn(rest.seated, e)
    ensures forall e :: e in st.entries ==> e in a.store.entries || SeatedIn(a.seated, e)
  {
    forall e | e in st.entries
      ensures e in a.store.entries || SeatedIn(a.seated, e)
    {
      if e.id == c.entry.id {
        SameIdSameEntry(st.entries, e, c.entry);
        assert a.seated[0].phone == e.phone && a.seated[0].name == e.name;
      } else if e !in rest.store.entries {
        assert e in next.entries;
        var k :| 0 <= k < |rest.seated| && rest.seated[k].phone == e.phone && rest.seated[k].name == e.name;
        assert a.seated[k + 1] == rest.seated[k];
      }
    }
  }

  /** Ids identify waiting entries. */
  lemma SameIdSameEntry(es: seq<Entry>, x: Entry, y: Entry)
    requires DistinctEntries(es) && x in es && y in es && x.id == y.id
    ensures x == y
  {
    var i :| 0 <= i < |es| && es[i] == x;
    var j :| 0 <= j < |es| && es[j] == y;
    SameIdSameIndex(es, i, j);
  }

  lemma SameIdSameIndex(es: seq<Entry>, i: nat, j: nat)
    requires DistinctEntries(es) && i < |es| && j < |es| && es[i].id == es[j].id
    ensures i == j
  {
  }
}

=== FILE: app.dfy ===
/**
 The database of app.py, the earlier variant of the bot: `users` is an
 append-only log of join requests (no allocation, no upsert), and
 `free_tables` records the table numbers a waiter reported free.
 */
module AppStore {
  import opened Optional

  /** A `users` row. Nothing stops the same phone number appearing twice. */
  datatype UserRow = UserRow(id: nat, phone: string, name: string, partySize: int)

  /** The `status` column; every write the handler makes sets `'free'`. */
  datatype TableStatus = Free | Occupied

  /** A `free_tables` row; `table_number` is UNIQUE. */
  datatype FreeTableRow = FreeTableRow(id: nat, number: string, status: TableStatus)

  datatype AppDb = AppDb(users: seq<UserRow>, tables: seq<FreeTableRow>, nextUserId: nat, nextTableId: nat)

  /** Positive distinct ids below the AUTOINCREMENT counters, and unique
      table numbers. */
  ghost predicate Valid(db: AppDb) {
    && db.nextUserId > 0 && db.nextTableId > 0
    && (forall i :: 0 <= i < |db.users| ==> 0 < db.users[i].id < db.nextUserId)
    && (forall i, j :: 0 <= i < j < |db.users| ==> db.users[i].id != db.users[j].id)
    && (forall i :: 0 <= i < |db.tables| ==> 0 < db.tables[i].id < db.nextTableId)
    && (forall i, j :: 0 <= i < j < |db.tables| ==>
          db.tables[i].id != db.tables[j].id && db.tables[i].number != db.tables[j].number)
  }

  /** How many rows a phone number has in `users`. */
  function CountPhone(users: seq<UserRow>, phone: string): nat {
    if |users| == 0 then 0
    else CountPhone(users[..|users| - 1], phone) + (if users[|users| - 1].phone == phone then 1 else 0)
  }

  /** The range of a SQLite INTEGER. Python's sqlite3 will not bind an int
      outside it: the INSERT raises OverflowError instead of running. */
  const IntegerMin: int := -0x8000_0000_0000_0000
  const IntegerMax: int := 0x7FFF_FFFF_FFFF_FFFF

  predicate FitsInteger(v: int) {
    IntegerMin <= v <= IntegerMax
  }

  /** `save_user_data_to_db`: a plain INSERT. Earlier rows stay as they
      were, the new row comes last with the next id, and the phone number
      has one row more than before, whatever rows it already had. A count
      outside the INTEGER range raises OverflowError, which the function's
      `sqlite3.Error` handler does not catch: `None`, nothing written. */
  function SaveUser(db: AppDb, phone: string, name: string, size: int): (r: Option<AppDb>)
    ensures r.Some? <==> FitsInteger(size)
    ensures r.Some? ==>
              && |r.value.users| == |db.users| + 1
              && r.value.users[..|db.users|] == db.users
              && r.value.users[|db.users|].phone == phone && r.value.users[|db.users|].name == name
              && r.value.users[|db.users|].partySize == size
              && CountPhone(r.value.users, phone) == CountPhone(db.users, phone) + 1
              && r.value.tables == db.tables
    ensures r.Some? && Valid(db) ==> Valid(r.value)
  {
    if !FitsInteger(size) then None
    else
      var users := db.users + [UserRow(db.nextUserId, phone, name, size)];
      assert users[..|db.users|] == db.users;
      Some(db.(users := users, nextUserId := db.nextUserId + 1))
  }

  /** The same party joining twice, with counts SQLite can store, leaves
      two rows. */
  lemma SaveUserTwiceDuplicates(db: AppDb, phone: string, n1: string, s1: int, n2: string, s2: int)
    requires FitsInteger(s1) && FitsInteger(s2)
    ensures var once := SaveUser(db, phone, n1, s1);
            && once.Some?
            && SaveUser(once.value, phone, n2, s2).Some?
            && CountPhone(SaveUser(once.value, phone, n2, s2).value.users, phone)
                 == CountPhone(db.users, phone) + 2
  {
  }

  predicate HasNumber(db: AppDb, number: string) {
    exists k :: 0 <= k < |db.tables| && db.tables[k].number == number
  }

  /** Position of the row for `number`, if any. */
  function FindNumber(tables: seq<FreeTableRow>, number: string): (k: int)
    ensures -1 <= k < |tables|
    ensures k >= 0 ==> tables[k].number == number
    ensures k < 0 ==> forall j :: 0 <= j < |tables| ==> tables[j].number != number
  {
    if |tables| == 0 then -1
    else if tables[|tables| - 1].number == number then |tables| - 1
    else FindNumber(tables[..|tables| - 1], number)
  }

  /** `save_free_table_to_db`: the row for `number` is marked free, or a
      free row is added for it. Afterwards it is the only row with that
      number, and every other row is as it was. */
  function SaveFreeTable(db: AppDb, number: string): (r: AppDb)
    requires Valid(db)
    ensures Valid(r)
    ensures r.users == db.users
    ensures HasNumber(r, number)
    ensures forall k :: 0 <= k < |r.tables| && r.tables[k].number == number ==> r.tables[k].status == Free
    ensures |r.tables| == |db.tables| + (if HasNumber(db, number) then 0 else 1)
    ensures forall k :: 0 <= k < |db.tables| && db.tables[k].number != number ==> r.tables[k] == db.tables[k]
    ensures forall k :: 0 <= k < |db.tables| ==> r.tables[k].id == db.tables[k].id && r.tables[k].number == db.tables[k].number
  {
    var k := FindNumber(db.tables, number);
    if k >= 0 then
      var tables := db.tables[k := db.tables[k].(status := Free)];
      MarkFreeKeepsValid(db, k);
      assert tables[k].number == number;
      db.(tables := tables)
    else
      var row := FreeTableRow(db.nextTableId, number, Free);
      var tables := db.tables + [row];
      AddFreeKeepsValid(db, number);
      assert tables[|db.tables|] == row;
      db.(tables := tables, nextTableId := db.nextTableId + 1)
  }

  lemma MarkFreeKeepsValid(db: AppDb, k: nat)
    requires Valid(db) && k < |db.tables|
    ensures Valid(db.(tables := db.tables[k := db.tables[k].(status := Free)]))
  {
  }

  lemma AddFreeKeepsValid(db: AppDb, number: string)
    requires Valid(db)
    requires forall j :: 0 <= j < |db.tables| ==> db.tables[j].number != number
    ensures Valid(db.(tables := db.tables + [FreeTableRow(db.nextTableId, number, Free)],
                      nextTableId := db.nextTableId + 1))
  {
  }

  /** Reporting the same table free again changes nothing. */
  lemma SaveFreeTableIdempotent(db: AppDb, number: string)
    requires Valid(db)
    ensures SaveFreeTable(SaveFreeTable(db, number), number) == SaveFreeTable(db, number)
  {
    var a := SaveFreeTable(db, number);
    var b := SaveFreeTable(a, number);
    assert |b.tables| == |a.tables|;
    forall k | 0 <= k < |a.tables|
      ensures b.tables[k] == a.tables[k]
    {
      if a.tables[k].number == number {
        assert b.tables[k].status == Free;
      }
    }
    assert b.tables == a.tables;
  }
}

/**
 The conversation of app.py's webhook. It shares the states, the waiter
 password and the name-count parsing with restaurant.py, but accepts only
 digit table input (stored as typed, without a "T"), keeps asking while the
 input is invalid, and puts no bound on the party size.
 */
module AppConversation {
  import opened Optional
  import opened Text
  import opened Sessions
  import opened Parsing

  datatype Reply =
    | PasswordPrompt
    | TablePrompt
    | WrongPassword
    | NamePrompt
    | FormatHelp
    | DefaultHelp
    | TextOnly
    | InvalidTableNumber
    | TableSaved(number: string)
    | Saved(name: string, count: int)

  datatype Command = SaveUserRow(name: string, count: int) | SaveTable(number: string)

  /** The new session, the reply, and the write to run first, if any. */
  datatype Transition = Transition(session: Session, reply: Reply, command: Option<Command>)

  /** The table-number test: the residue is digits, or starts with "table"
      and has digits after it. */
  function AcceptTable(residue: string): (ok: bool)
    ensures ok ==> exists k :: 0 <= k < |residue| && IsDigit(residue[k])
    ensures ok && !IsDigits(residue) ==>
              |residue| > 5 && residue[..5] == "table" && IsDigits(Strip(residue[5..]))
    ensures IsDigits(residue) ==> ok
    ensures StartsWith(residue, "table") && IsDigits(Strip(residue[5..])) ==> ok
  {
    if IsDigits(residue) then
      assert IsDigit(residue[0]);
      true
    else if StartsWith(residue, "table") && IsDigits(Strip(residue[5..])) then
      var tail := residue[5..];
      var d := Strip(tail);
      var i := LeadingSpace(tail);
      assert d[0] == tail[i] == residue[5 + i] && IsDigit(d[0]);
      true
    else false
  }

  /** One text message (already lower-cased and stripped). */
  function Step(s: Session, t: string): (r: Transition)
    ensures Valid(s) ==> Valid(r.session)
    ensures r.command.Some? ==> r.session == Fresh
    ensures r.command.Some? && r.command.value.SaveTable? ==>
              && s == Session(Waiter, AwaitingFreeTableNumber)
              && AcceptTable(TableResidue(t))
              && r.command.value.number == TableResidue(t)
    ensures r.command.Some? && r.command.value.SaveUserRow? ==>
              && s == Session(Customer, AwaitingNamePeople)
              && ParseNameCount(t) == Some(NameCount(r.command.value.name, r.command.value.count))
  {
    if s.state == Initial && t == "waiter" then
      Transition(Session(Waiter, AwaitingWaiterPassword), PasswordPrompt, None)
    else if s.state == AwaitingWaiterPassword && s.role == Waiter then
      if t == WaiterPassword then Transition(s.(state := AwaitingFreeTableNumber), TablePrompt, None)
      else Transition(Fresh, WrongPassword, None)
    else if s.state == AwaitingFreeTableNumber && s.role == Waiter then
      var number := TableResidue(t);
      if AcceptTable(number) then Transition(Fresh, TableSaved(number), Some(SaveTable(number)))
      else Transition(s, InvalidTableNumber, None)
    else if s.state == Initial && t == "hi" then
      Transition(Session(Customer, AwaitingNamePeople), NamePrompt, None)
    else if s.state == AwaitingNamePeople && s.role == Customer then
      match ParseNameCount(t)
      case None => Transition(s, FormatHelp, None)
      case Some(nc) => Transition(Fresh, Saved(nc.name, nc.count), Some(SaveUserRow(nc.name, nc.count)))
    else
      Transition(s, DefaultHelp, None)
  }

  /** From the initial state "waiter" asks for the password and "hi" asks
      for name and party size, whatever the role was. */
  lemma Greetings(role: Role)
    ensures Step(Session(role, Initial), "waiter")
              == Transition(Session(Waiter, AwaitingWaiterPassword), PasswordPrompt, None)
    ensures Step(Session(role, Initial), "hi")
              == Transition(Session(Customer, AwaitingNamePeople), NamePrompt, None)
  {
  }

  /** Any message no branch handles gets the help text and moves nothing. */
  lemma DefaultKeepsSession(s: Session, t: string)
    requires !(s.state == Initial && (t == "waiter" || t == "hi"))
    requires !(s.role == Waiter && IsWaiterState(s.state))
    requires s != Session(Customer, AwaitingNamePeople)
    ensures Step(s, t) == Transition(s, DefaultHelp, None)
  {
  }

  /** The right password leads to the table prompt; anything else resets
      to customer/initial, as in restaurant.py. */
  lemma WaiterLogin(t: string)
    ensures t == WaiterPassword ==>
              Step(Session(Waiter, AwaitingWaiterPassword), t)
                == Transition(Session(Waiter, AwaitingFreeTableNumber), TablePrompt, None)
    ensures t != WaiterPassword ==>
              Step(Session(Waiter, AwaitingWaiterPassword), t) == Transition(Fresh, WrongPassword, None)
  {
  }

  /** At the table prompt, accepted input is saved as its residue and
      resets the session; anything else is refused and asked for again. */
  lemma TableInputOutcome(t: string)
    ensures var r := Step(Session(Waiter, AwaitingFreeTableNumber), t);
            && (AcceptTable(TableResidue(t)) ==>
                  r == Transition(Fresh, TableSaved(TableResidue(t)), Some(SaveTable(TableResidue(t)))))
            && (!AcceptTable(TableResidue(t)) ==>
                  r == Transition(Session(Waiter, AwaitingFreeTableNumber), InvalidTableNumber, None))
  {
  }

  /** "N" and "table N" are saved as the bare digits N, without a "T". */
  lemma DigitFormsSavedBare(n: nat)
    ensures Step(Session(Waiter, AwaitingFreeTableNumber), NatToDecimal(n)).command
              == Some(SaveTable(NatToDecimal(n)))
    ensures Step(Session(Waiter, AwaitingFreeTableNumber), "table " + NatToDecimal(n)).command
              == Some(SaveTable(NatToDecimal(n)))
  {
    var d := NatToDecimal(n);
    TableResidueOfDigits(d);
    TableResidueOfTableNumber(d);
    DigitResidueSaved(d);
    DigitResidueSaved("table " + d);
  }

  /** A table input whose residue is all digits is saved as that residue. */
  lemma DigitResidueSaved(t: string)
    requires IsDigits(TableResidue(t))
    ensures Step(Session(Waiter, AwaitingFreeTableNumber), t).command == Some(SaveTable(TableResidue(t)))
  {
  }

  /** "t5", which restaurant.py turns into "T5", is refused here. */
  lemma TaggedNumberRefused(d: string)
    requires IsDigits(d)
    ensures Step(Session(Waiter, AwaitingFreeTableNumber), "t" + d).session
              == Session(Waiter, AwaitingFreeTableNumber)
    ensures Step(Session(Waiter, AwaitingFreeTableNumber), "t" + d).command == None
  {
    TaggedNumberResidue(d);
    var s := "t" + d;
    assert !IsDigits(s) by { assert !IsDigit(s[0]); }
    assert !StartsWith(s, "table") by {
      if |s| >= 5 {
        assert s[1] == d[0];
        assert IsDigit(d[0]);
      }
    }
  }

  /** The second half of the test is reachable only through input that
      still holds "table" after the removal: "tatableble" followed by
      digits is accepted and saved with the word in it. */
  lemma ResidualTableWordSaved(d: string)
    requires IsDigits(d)
    ensures Step(Session(Waiter, AwaitingFreeTableNumber), "tatableble" + d).command
              == Some(SaveTable("table" + d))
  {
    ResidueKeepsTableWord(d);
    AcceptTableWord(d);
  }

  lemma ResidueKeepsTableWord(d: string)
    requires IsDigits(d)
    ensures TableResidue("tatableble" + d) == "table" + d
  {
    DigitsAfterBleHaveNoT(d);
    NoTableWithoutT("ble" + d);
    RemoveAllCanLeaveOccurrence(d);
    TableWordStripped(d);
  }

  lemma DigitsAfterBleHaveNoT(d: string)
    requires IsDigits(d)
    ensures 't' !in "ble" + d
  {
    var rest := "ble" + d;
    forall i | 0 <= i < |rest| ensures rest[i] != 't' {
      if i >= 3 { assert rest[i] == d[i - 3]; assert IsDigit(d[i - 3]); }
    }
  }

  lemma TableWordStripped(d: string)
    requires IsDigits(d)
    ensures Strip("table" + d) == "table" + d
  {
    var residue := "table" + d;
    assert residue[0] == 't' && residue[|residue| - 1] == d[|d| - 1];
    assert IsDigit(d[|d| - 1]);
    StripUntouched(residue);
  }

  lemma AcceptTableWord(d: string)
    requires IsDigits(d)
    ensures AcceptTable("table" + d)
  {
    var residue := "table" + d;
    assert StartsWith(residue, "table");
    assert residue[5..] == d;
    assert IsDigit(d[0]) && IsDigit(d[|d| - 1]);
    StripUntouched(d);
  }

  /** Every text at the name prompt goes to the name branch: a parsed
      pair resets the session and asks for that row to be saved, anything
      else gets the format help and stays at the prompt. */
  lemma NamePromptOutcome(t: string)
    ensures ParseNameCount(t).Some? ==>
              var v := ParseNameCount(t).value;
              Step(Session(Customer, AwaitingNamePeople), t)
                == Transition(Fresh, Saved(v.name, v.count), Some(SaveUserRow(v.name, v.count)))
    ensures ParseNameCount(t).None? ==>
              Step(Session(Customer, AwaitingNamePeople), t)
                == Transition(Session(Customer, AwaitingNamePeople), FormatHelp, None)
  {
  }

  /** The step asks to save any integer count: zero, negative and oversized
      parties too. */
  lemma AnyCountSaved(name: string, n: int)
    requires ',' !in name
    requires name == [] || (!IsSpace(name[0]) && !IsSpace(name[|name| - 1]))
    ensures Step(Session(Customer, AwaitingNamePeople), name + ", " + IntToDecimal(n))
              == Transition(Fresh, Saved(name, n), Some(SaveUserRow(name, n)))
  {
    ParseNameCountRoundTrip(name, n);
  }
}

/** The POST handler of app.py. */
module AppWebhook {
  import opened Optional
  import opened Sessions
  import opened Parsing
  import opened AppConversation
  import AppStore

  datatype Event = Event(sender: string, isText: bool, body: string)

  datatype World = World(sessions: map<string, Session>, db: AppStore.AppDb)

  /** The world after the message and the reply sent to its sender, if
      any: `None` when the request aborted before replying. */
  datatype Handled = Handled(world: World, reply: Option<Reply>)

  /** Running the write a transition asks for: `None` when the INSERT
      raised. */
  function Apply(db: AppStore.AppDb, sender: string, cmd: Command): (r: Option<AppStore.AppDb>)
    requires AppStore.Valid(db)
    ensures r.Some? ==> AppStore.Valid(r.value)
    ensures cmd.SaveTable? ==> r.Some?
    ensures cmd.SaveUserRow? ==> (r.Some? <==> AppStore.FitsInteger(cmd.count))
    ensures cmd.SaveUserRow? && r.Some? ==>
              var d := r.value;
              && |d.users| == |db.users| + 1
              && d.users[..|db.users|] == db.users
              && d.users[|db.users|].phone == sender
              && d.users[|db.users|].name == cmd.name
              && d.users[|db.users|].partySize == cmd.count
              && AppStore.CountPhone(d.users, sender) == AppStore.CountPhone(db.users, sender) + 1
              && d.tables == db.tables
    ensures cmd.SaveTable? && r.Some? ==>
              var d := r.value;
              && AppStore.HasNumber(d, cmd.number) && d.users == db.users
              && (forall k :: 0 <= k < |d.tables| && d.tables[k].number == cmd.number ==>
                    d.tables[k].status == AppStore.Free)
              && |d.tables| == |db.tables| + (if AppStore.HasNumber(db, cmd.number) then 0 else 1)
              && (forall k :: 0 <= k < |db.tables| && db.tables[k].number != cmd.number ==>
                    d.tables[k] == db.tables[k])
              && (forall k :: 0 <= k < |db.tables| ==>
                    d.tables[k].id == db.tables[k].id && d.tables[k].number == db.tables[k].number)
  {
    match cmd
    case SaveUserRow(name, count) => AppStore.SaveUser(db, sender, name, count)
    case SaveTable(number) => Some(AppStore.SaveFreeTable(db, number))
  }

  /** One inbound message. A non-text one gets the text-only notice with
      nothing else changed. A text one moves the session and gets the reply
      the conversation gives, after running the write it asks for; when that
      write raises, the request ends there: no reply, the database as it
      was, and the sender keeps the session it had on arrival. */
  function Handle(w: World, ev: Event): (r: Handled)
    requires AppStore.Valid(w.db)
    ensures AppStore.Valid(r.world.db)
    ensures AllValid(w.sessions) ==> AllValid(r.world.sessions)
    ensures ev.sender in r.world.sessions
    ensures forall p :: p != ev.sender ==> (p in r.world.sessions <==> p in w.sessions)
    ensures forall p :: p != ev.sender && p in w.sessions ==> r.world.sessions[p] == w.sessions[p]
    ensures !ev.isText ==> r.world.db == w.db && r.reply == Some(TextOnly)
    ensures !ev.isText ==> r.world.sessions[ev.sender] == SessionOf(w.sessions, ev.sender)
    ensures ev.isText ==>
              var tr := Step(SessionOf(w.sessions, ev.sender), Normalize(ev.body));
              && (tr.command.None? ==>
                    r.world.db == w.db && r.world.sessions[ev.sender] == tr.session && r.reply == Some(tr.reply))
              && (tr.command.Some? && Apply(w.db, ev.sender, tr.command.value).Some? ==>
                    && r.world.db == Apply(w.db, ev.sender, tr.command.value).value
                    && r.world.sessions[ev.sender] == tr.session
                    && r.reply == Some(tr.reply))
              && (tr.command.Some? && Apply(w.db, ev.sender, tr.command.value).None? ==>
                    && r.world.db == w.db
                    && r.world.sessions[ev.sender] == SessionOf(w.sessions, ev.sender)
                    && r.reply == None)
    ensures r.reply.None? ==> r.world.db == w.db
  {
    var s := SessionOf(w.sessions, ev.sender);
    if !ev.isText then
      Handled(World(w.sessions[ev.sender := s], w.db), Some(TextOnly))
    else
      assert AllValid(w.sessions) ==> Valid(s);
      Commit(w, ev.sender, s, Step(s, Normalize(ev.body)))
  }

  /** The end of a text message: run the write the transition asks for,
      then store the new session and send the reply; when the write fails
      the sender keeps the session it arrived with and gets no reply. */
  function Commit(w: World, sender: string, arrival: Session, tr: Transition): (r: Handled)
    requires AppStore.Valid(w.db)
    ensures AppStore.Valid(r.world.db)
    ensures r.world.sessions == w.sessions[sender := if r.reply.None? then arrival else tr.session]
    ensures AllValid(w.sessions) && Valid(arrival) && Valid(tr.session) ==> AllValid(r.world.sessions)
    ensures tr.command.None? ==> r.world.db == w.db && r.reply == Some(tr.reply)
    ensures tr.command.Some? && Apply(w.db, sender, tr.command.value).Some? ==>
              r.world.db == Apply(w.db, sender, tr.command.value).value && r.reply == Some(tr.reply)
    ensures tr.command.Some? && Apply(w.db, sender, tr.command.value).None? ==>
              r.world.db == w.db && r.reply == None
  {
    match tr.command
    case None => Handled(World(w.sessions[sender := tr.session], w.db), Some(tr.reply))
    case Some(cmd) =>
      match Apply(w.db, sender, cmd)
      case None => Handled(World(w.sessions[sender := arrival], w.db), None)
      case Some(db) => Handled(World(w.sessions[sender := tr.session], db), Some(tr.reply))
  }

  /** "john, 9223372036854775808" and any other join whose count SQLite
      cannot store: the request aborts with no reply and no row, and the
      sender stays at the name prompt. A count that fits is saved. */
  lemma JoinCountBound(w: World, ev: Event)
    requires AppStore.Valid(w.db) && ev.isText
    requires SessionOf(w.sessions, ev.sender) == Session(Customer, AwaitingNamePeople)
    ensures var v := ParseNameCount(Normalize(ev.body));
            var r := Handle(w, ev);
            && (v.Some? && !AppStore.FitsInteger(v.value.count) ==>
                  && r.reply == None && r.world.db == w.db
                  && r.world.sessions[ev.sender] == Session(Customer, AwaitingNamePeople))
            && (v.Some? && AppStore.FitsInteger(v.value.count) ==>
                  && r.reply == Some(Saved(v.value.name, v.value.count))
                  && |r.world.db.users| == |w.db.users| + 1
                  && r.world.db.users[|w.db.users|].partySize == v.value.count
                  && r.world.sessions[ev.sender] == Fresh)
  {
    NamePromptOutcome(Normalize(ev.body));
  }
}

=== FILE: conversation.dfy ===
/**
 The conversation state machine of restaurant.py's webhook: one text
 message, already lower-cased and stripped, moves a sender's session and
 may ask the store to enqueue a party or free a table. The replies are
 message kinds, not the literal texts.
 */
module Conversation {
  import opened Optional
  import opened Text
  import opened Sessions
  import opened Parsing

  /** Outbound message kinds. */
  datatype Message =
    | PasswordPrompt
    | TablePrompt
    | WrongPassword
    | NamePrompt
    | CountNotPositive
    | CountTooLarge
    | FormatHelp
    | DefaultHelp
    | TextOnly
    | TableFreed(number: string)
    | TableNotFound(number: string)
    | Queued(name: string, count: int)
    | TableReady(name: string, number: string)

  /** Store operations a transition asks for. */
  datatype Command = Enqueue(name: string, count: int) | FreeTable(number: string)

  /** The new session, the immediate reply (absent when the reply depends on
      the outcome of the command), and the commands to run. */
  datatype Transition = Transition(session: Session, reply: Option<Message>, commands: seq<Command>)

  /** The party-size bound the handler checks: the largest seeded table. */
  const MaxPartySize := 6

  /** The table number a waiter's text names: "table" removed and the rest
      stripped; digits get the "T" prefix, anything else is upper-cased. */
  function NormalizeTable(t: string): (number: string)
    ensures IsDigits(TableResidue(t)) ==> number == "T" + TableResidue(t)
    ensures !IsDigits(TableResidue(t)) ==> number == Upper(TableResidue(t))
    ensures !IsDigits(TableResidue(t)) ==> |number| == |TableResidue(t)|
    ensures forall i :: 0 <= i < |number| ==> !IsLower(number[i])
  {
    var residue := TableResidue(t);
    if IsDigits(residue) then
      assert forall i :: 0 <= i < |residue| ==> IsDigit(residue[i]);
      "T" + residue
    else Upper(residue)
  }

  /** A table can be named by its number, by "table" and its number, or by
      its own name in lower case. */
  lemma NormalizeTableForms(n: nat)
    ensures NormalizeTable(NatToDecimal(n)) == "T" + NatToDecimal(n)
    ensures NormalizeTable("table " + NatToDecimal(n)) == "T" + NatToDecimal(n)
    ensures NormalizeTable("t" + NatToDecimal(n)) == "T" + NatToDecimal(n)
  {
    var d := NatToDecimal(n);
    TableResidueOfDigits(d);
    TableResidueOfTableNumber(d);
    NormalizeTaggedNumber(d);
  }

  lemma NormalizeTaggedNumber(d: string)
    requires IsDigits(d)
    ensures NormalizeTable("t" + d) == "T" + d
  {
    TaggedNumberResidue(d);
    var u := Upper("t" + d);
    assert u[0] == 'T';
    assert forall i :: 1 <= i < |u| ==> u[i] == ("t" + d)[i] == d[i - 1];
    assert u == "T" + d;
  }

  /** One message from a sender in session `s`, with text `t` (the body
      already lower-cased and stripped). */
  function Step(s: Session, t: string): (r: Transition)
    ensures Valid(s) ==> Valid(r.session)
    ensures |r.commands| <= 1
    ensures r.reply.None? <==> |r.commands| == 1
    ensures |r.commands| == 1 ==> r.session == Fresh
    ensures |r.commands| == 1 && r.commands[0].FreeTable? ==>
              s == Session(Waiter, AwaitingFreeTableNumber)
    ensures |r.commands| == 1 && r.commands[0].Enqueue? ==>
              s == Session(Customer, AwaitingNamePeople) && 1 <= r.commands[0].count <= MaxPartySize
  {
    if s.state == Initial && t == "waiter" then
      Transition(Session(Waiter, AwaitingWaiterPassword), Some(PasswordPrompt), [])
    else if s.state == AwaitingWaiterPassword && s.role == Waiter then
      if t == WaiterPassword then
        Transition(s.(state := AwaitingFreeTableNumber), Some(TablePrompt), [])
      else
        Transition(Fresh, Some(WrongPassword), [])
    else if s.state == AwaitingFreeTableNumber && s.role == Waiter then
      // reset whether or not the table is found
      Transition(Fresh, None, [FreeTable(NormalizeTable(t))])
    else if s.state == Initial && t == "hi" then
      Transition(Session(Customer, AwaitingNamePeople), Some(NamePrompt), [])
    else if s.state == AwaitingNamePeople && s.role == Customer then
      JoinStep(t)
    else
      Transition(s, Some(DefaultHelp), [])
  }

  /** The "Name, Count" answer: queued and reset when it parses with
      1 <= count <= 6, otherwise the matching error and no move. */
  function JoinStep(t: string): (r: Transition)
    ensures r.session == Fresh || r.session == Session(Customer, AwaitingNamePeople)
    ensures r.session == Fresh <==> |r.commands| == 1
    ensures |r.commands| <= 1 && (r.reply.None? <==> |r.commands| == 1)
    ensures |r.commands| == 1 ==> r.commands[0].Enqueue? && 1 <= r.commands[0].count <= MaxPartySize
  {
    match ParseNameCount(t)
    case None => Transition(Session(Customer, AwaitingNamePeople), Some(FormatHelp), [])
    case Some(nc) =>
      if nc.count <= 0 then Transition(Session(Customer, AwaitingNamePeople), Some(CountNotPositive), [])
      else if nc.count > MaxPartySize then Transition(Session(Customer, AwaitingNamePeople), Some(CountTooLarge), [])
      else Transition(Fresh, None, [Enqueue(nc.name, nc.count)])
  }

  /** "waiter" from the initial state asks for the password; the right
      password leads to the table prompt and anything else resets. */
  lemma WaiterLogin(role: Role, t: string)
    ensures Step(Session(role, Initial), "waiter")
              == Transition(Session(Waiter, AwaitingWaiterPassword), Some(PasswordPrompt), [])
    ensures t == WaiterPassword ==>
              Step(Session(Waiter, AwaitingWaiterPassword), t)
                == Transition(Session(Waiter, AwaitingFreeTableNumber), Some(TablePrompt), [])
    ensures t != WaiterPassword ==>
              Step(Session(Waiter, AwaitingWaiterPassword), t) == Transition(Fresh, Some(WrongPassword), [])
  {
  }

  /** The password is compared after lower-casing and stripping, so any
      capitalisation of it, with any whitespace around it, is accepted. */
  lemma PasswordIgnoresCase(body: string)
    requires Lower(Strip(body)) == WaiterPassword
    ensures Step(Session(Waiter, AwaitingWaiterPassword), Normalize(body))
              == Transition(Session(Waiter, AwaitingFreeTableNumber), Some(TablePrompt), [])
  {
    StripLowerCommute(body);
  }

  /** "hi" from the initial state starts a customer on the name prompt,
      whatever the role was. */
  lemma CustomerGreeting(role: Role)
    ensures Step(Session(role, Initial), "hi")
              == Transition(Session(Customer, AwaitingNamePeople), Some(NamePrompt), [])
  {
  }

  /** Any message no branch handles gets the help text and moves nothing. */
  lemma DefaultKeepsSession(s: Session, t: string)
    requires !(s.state == Initial && (t == "waiter" || t == "hi"))
    requires !(s.role == Waiter && IsWaiterState(s.state))
    requires s != Session(Customer, AwaitingNamePeople)
    ensures Step(s, t) == Transition(s, Some(DefaultHelp), [])
  {
  }

  /** Whatever the waiter types for the table, the session goes back to
      customer/initial and exactly one release is requested. */
  lemma FreeTableAlwaysResets(t: string)
    ensures Step(Session(Waiter, AwaitingFreeTableNumber), t).session == Fresh
    ensures Step(Session(Waiter, AwaitingFreeTableNumber), t).reply == None
    ensures Step(Session(Waiter, AwaitingFreeTableNumber), t).commands == [FreeTable(NormalizeTable(t))]
  {
  }

  /** While waiting for "Name, Count" the session moves only on a successful
      join: exactly one comma, an integer count, and 1 <= count <= 6. */
  lemma NamePeopleLeavesOnlyOnEnqueue(t: string)
    ensures var s := Session(Customer, AwaitingNamePeople);
            var r := Step(s, t);
            var p := ParseNameCount(t);
            (r.session != s <==> (p.Some? && 1 <= p.value.count <= MaxPartySize))
            && (r.session != s ==> r.session == Fresh && r.commands == [Enqueue(p.value.name, p.value.count)])
            && (r.session == s ==> r.commands == [])
  {
    assert Step(Session(Customer, AwaitingNamePeople), t) == JoinStep(t);
  }

  /** Every text at the name prompt gets one of four outcomes: the format
      help when it does not parse, the matching error when the count is
      out of range, and otherwise the party is queued and the session
      reset. */
  lemma NamePromptOutcome(t: string)
    ensures var s := Session(Customer, AwaitingNamePeople);
            var p := ParseNameCount(t);
            && (p.None? ==> Step(s, t) == Transition(s, Some(FormatHelp), []))
            && (p.Some? && p.value.count <= 0 ==> Step(s, t) == Transition(s, Some(CountNotPositive), []))
            && (p.Some? && p.value.count > MaxPartySize ==> Step(s, t) == Transition(s, Some(CountTooLarge), []))
            && (p.Some? && 1 <= p.value.count <= MaxPartySize ==>
                  Step(s, t) == Transition(Fresh, None, [Enqueue(p.value.name, p.value.count)]))
  {
    assert Step(Session(Customer, AwaitingNamePeople), t) == JoinStep(t);
  }

  /** "hi" and "waiter" have no comma, so they are format errors while a
      customer is being asked for name and party size. */
  lemma GreetingsIgnoredWhileJoining()
    ensures Step(Session(Customer, AwaitingNamePeople), "hi")
              == Transition(Session(Customer, AwaitingNamePeople), Some(FormatHelp), [])
    ensures Step(Session(Customer, AwaitingNamePeople), "waiter")
              == Transition(Session(Customer, AwaitingNamePeople), Some(FormatHelp), [])
  {
    assert ',' !in "hi" && ',' !in "waiter";
    CountAbsent("hi", ',');
    CountAbsent("waiter", ',');
  }

  /** A well-formed join for a party of 1 to 6 is queued. */
  lemma JoinAccepted(name: string, n: int)
    requires ',' !in name
    requires name == [] || (!IsSpace(name[0]) && !IsSpace(name[|name| - 1]))
    requires 1 <= n <= MaxPartySize
    ensures Step(Session(Customer, AwaitingNamePeople), name + ", " + IntToDecimal(n)).session == Fresh
    ensures Step(Session(Customer, AwaitingNamePeople), name + ", " + IntToDecimal(n)).commands
              == [Enqueue(name, n)]
  {
    ParseNameCountRoundTrip(name, n);
    assert Step(Session(Customer, AwaitingNamePeople), name + ", " + IntToDecimal(n))
             == JoinStep(name + ", " + IntToDecimal(n));
  }

  /** Out-of-range counts are refused and the customer is asked again. */
  lemma JoinOutOfRange(name: string, n: int)
    requires ',' !in name
    requires name == [] || (!IsSpace(name[0]) && !IsSpace(name[|name| - 1]))
    requires n <= 0 || n > MaxPartySize
    ensures Step(Session(Customer, AwaitingNamePeople), name + ", " + IntToDecimal(n)).session
              == Session(Customer, AwaitingNamePeople)
    ensures Step(Session(Customer, AwaitingNamePeople), name + ", " + IntToDecimal(n)).reply
              == Some(if n <= 0 then CountNotPositive else CountTooLarge)
  {
    ParseNameCountRoundTrip(name, n);
    assert Step(Session(Customer, AwaitingNamePeople), name + ", " + IntToDecimal(n))
             == JoinStep(name + ", " + IntToDecimal(n));
  }
}

=== FILE: ordering.dfy ===
/**
 Ordering by a pair of integer keys, compared the way Python compares tuples.
 `SortBy` is a stable sort: it repeatedly takes the FIRST element whose key
 is minimal, so elements with equal keys keep their relative order, as
 Python's `sorted` does. The ordered SQL views (`ORDER BY timestamp`,
 `ORDER BY capacity`) are modelled with the same sort, ties in sequence order.
 */
module Ordering {

  /** Lexicographic `<=` on key pairs. */
  predicate KeyLe(a: (int, int), b: (int, int)) {
    a.0 < b.0 || (a.0 == b.0 && a.1 <= b.1)
  }

  ghost predicate SortedBy<T>(s: seq<T>, key: T -> (int, int)) {
    forall i, j :: 0 <= i < j < |s| ==> KeyLe(key(s[i]), key(s[j]))
  }

  /** The position of the first element whose key is minimal: its key is
      `<=` every key, and strictly below every key in front of it. */
  function FirstMinIndex<T>(s: seq<T>, key: T -> (int, int)): (m: nat)
    requires |s| > 0
    ensures m < |s|
    ensures forall j :: 0 <= j < |s| ==> KeyLe(key(s[m]), key(s[j]))
    ensures forall j :: 0 <= j < m ==> !KeyLe(key(s[j]), key(s[m]))
    decreases |s|
  {
    if |s| == 1 then 0
    else
      var p := s[..|s| - 1];
      var m := FirstMinIndex(p, key);
      assert forall j :: 0 <= j < |p| ==> p[j] == s[j];
      if KeyLe(key(s[m]), key(s[|s| - 1])) then m else |s| - 1
  }

  /** Removing position `m` leaves the other elements. */
  lemma RemoveAtMultiset<T>(s: seq<T>, m: nat)
    requires m < |s|
    ensures multiset(s[..m] + s[m + 1..]) + multiset{s[m]} == multiset(s)
  {
    assert s == s[..m] + [s[m]] + s[m + 1..];
  }

  /** Stable sort by `key`: a permutation of `s`, ordered by key, whose head
      is the first minimal element of `s`. */
  function SortBy<T>(s: seq<T>, key: T -> (int, int)): (r: seq<T>)
    ensures |r| == |s|
    ensures multiset(r) == multiset(s)
    ensures SortedBy(r, key)
    ensures |s| > 0 ==> r[0] == s[FirstMinIndex(s, key)]
    decreases |s|
  {
    if |s| == 0 then []
    else
      var m := FirstMinIndex(s, key);
      var rest := s[..m] + s[m + 1..];
      var sortedRest := SortBy(rest, key);
      RemoveAtMultiset(s, m);
      MultisetSubsetMembers(sortedRest, s);
      ConsSorted(s[m], s, sortedRest, key);
      [s[m]] + sortedRest
  }

  /** Putting an element whose key is below every key of `s` in front of a
      sorted arrangement of elements of `s` gives a sorted sequence. */
  lemma ConsSorted<T>(h: T, s: seq<T>, rest: seq<T>, key: T -> (int, int))
    requires forall j :: 0 <= j < |s| ==> KeyLe(key(h), key(s[j]))
    requires forall x :: x in rest ==> x in s
    requires SortedBy(rest, key)
    ensures SortedBy([h] + rest, key)
  {
    forall x | x in rest
      ensures KeyLe(key(h), key(x))
    {
      var k :| 0 <= k < |s| && s[k] == x;
    }
    var r := [h] + rest;
    forall i, j | 0 <= i < j < |r|
      ensures KeyLe(key(r[i]), key(r[j]))
    {
      assert r[j] == rest[j - 1];
      if i > 0 {
        assert r[i] == rest[i - 1];
      }
    }
  }

  lemma MultisetSubsetMembers<T>(a: seq<T>, b: seq<T>)
    requires multiset(a) <= multiset(b)
    ensures forall x :: x in a ==> x in b
  {
    forall x | x in a
      ensures x in b
    {
      assert x in multiset(a);
    }
  }

  /** Sorting keeps exactly the same elements. */
  lemma SortByMembers<T>(s: seq<T>, key: T -> (int, int), x: T)
    ensures x in SortBy(s, key) <==> x in s
  {
    var r := SortBy(s, key);
    assert x in r <==> x in multiset(r);
    assert x in s <==> x in multiset(s);
  }
}

=== FILE: scenarios.dfy ===
/**
 Two situations the allocation engine of restaurant.py is meant to handle:
 equal parties competing for one table are served in arrival order, and a
 table freed in a settled restaurant goes to the one waiting party it fits.
 */
module Scenarios {
  import opened Optional
  import Store
  import Allocation

  /** Two equally sized parties and one free table that fits them: the
      one that arrived first is seated, the other keeps waiting. */
  lemma EarlierPartySeatedFirst(st: Store.Store, a: Store.Entry, b: Store.Entry, k: nat)
    requires Store.Valid(st)
    requires st.entries == [a, b]
    requires a.partySize == b.partySize && a.enqueuedAt < b.enqueuedAt
    requires k < |st.tables| && st.tables[k].status == Store.Free && st.tables[k].capacity >= a.partySize
    requires forall j :: 0 <= j < |st.tables| && j != k ==> st.tables[j].status == Store.Occupied
    ensures Allocation.Allocate(st).seated == [Allocation.Seating(a.phone, a.name, st.tables[k].number)]
    ensures Allocation.Allocate(st).store.entries == [b]
  {
    var t := st.tables[k];
    assert TwoForOne(st, a, b, k);
    var c := EarlierPartyChosen(st, a, b, k);
    var next := Store.Seat(st, a.id, t.id);
    OnlyLaterPartyLeft(st, a, b, k);
    Allocation.AllocateSeatsChoice(st);
    assert Allocation.Settled(next);
  }

  /** The situation above: parties `a` then `b` of equal size, and table
      `k` the only free one, big enough for them. */
  ghost predicate TwoForOne(st: Store.Store, a: Store.Entry, b: Store.Entry, k: nat) {
    && st.entries == [a, b]
    && a.partySize == b.partySize && a.enqueuedAt < b.enqueuedAt
    && k < |st.tables| && st.tables[k].status == Store.Free && st.tables[k].capacity >= a.partySize
    && forall j :: 0 <= j < |st.tables| && j != k ==> st.tables[j].status == Store.Occupied
  }

  /** The pass in that situation picks the earlier party and the free table. */
  lemma EarlierPartyChosen(st: Store.Store, a: Store.Entry, b: Store.Entry, k: nat) returns (c: Allocation.Candidate)
    requires TwoForOne(st, a, b, k)
    ensures k < |st.tables| && Allocation.Pass(st) == Some(c) && c.entry == a && c.table == st.tables[k]
  {
    BestOfTwo(st, a, b, k);
    c := Allocation.Pass(st).value;
  }

  /** In that situation a pair exists, and the only best pair is the
      earlier party at the free table. */
  lemma BestOfTwo(st: Store.Store, a: Store.Entry, b: Store.Entry, k: nat)
    requires TwoForOne(st, a, b, k)
    ensures !Allocation.Settled(st)
    ensures forall c :: Allocation.BestPair(st, c) ==> c.entry == a && c.table == st.tables[k]
  {
    assert a in st.entries && st.tables[k] in st.tables;
    forall c | Allocation.BestPair(st, c)
      ensures c.entry == a && c.table == st.tables[k]
    {
      var j :| 0 <= j < |st.tables| && st.tables[j] == c.table;
      assert j == k;
      assert Allocation.Fits(a, st.tables[k]);
    }
  }

  /** Seating the earlier party at the only free table leaves the later
      party waiting and no free table. */
  lemma OnlyLaterPartyLeft(st: Store.Store, a: Store.Entry, b: Store.Entry, k: nat)
    requires Store.Valid(st)
    requires st.entries == [a, b]
    requires k < |st.tables| && st.tables[k].status == Store.Free
    requires forall j :: 0 <= j < |st.tables| && j != k ==> st.tables[j].status == Store.Occupied
    ensures var next := Store.Seat(st, a.id, st.tables[k].id);
            next.entries == [b] && Allocation.Settled(next)
  {
    var next := Store.Seat(st, a.id, st.tables[k].id);
    Store.WithoutUniqueLength(st.entries, 0);
    assert b in next.entries;
  }

  /** After releasing table `k` in a settled store with one waiting party
      that fits it, allocation seats that party there and nobody else. */
  lemma ReleasedTableSeatsAlone(st: Store.Store, rel: Store.Store, alice: Store.Entry, k: nat)
    requires Store.Valid(st) && Allocation.Settled(st)
    requires st.entries == [alice]
    requires k < |st.tables| && st.tables[k].capacity >= alice.partySize
    requires rel == Store.Release(st, st.tables[k].number).store
    ensures Allocation.Allocate(rel).seated == [Allocation.Seating(alice.phone, alice.name, st.tables[k].number)]
    ensures Allocation.Allocate(rel).store.entries == []
  {
    var c := ReleasedChoice(st, rel, alice, k);
    Allocation.AllocateSeatsChoice(rel);
    var next := SeatOnlyParty(rel, alice, c.table);
    Allocation.NothingToSeat(next);
  }

  /** The pass after that release picks the party and the released table:
      every other free table was free before, and the party did not fit it. */
  lemma ReleasedChoice(st: Store.Store, rel: Store.Store, alice: Store.Entry, k: nat) returns (c: Allocation.Candidate)
    requires Store.Valid(st) && Allocation.Settled(st)
    requires st.entries == [alice]
    requires k < |st.tables| && st.tables[k].capacity >= alice.partySize
    requires rel == Store.Release(st, st.tables[k].number).store
    ensures Store.Valid(rel) && rel.entries == [alice]
    ensures Allocation.Pass(rel) == Some(c) && c.entry == alice
    ensures c.table.number == st.tables[k].number && c.table.status == Store.Free && c.table in rel.tables
  {
    ReleasedBest(st, rel, alice, k);
    c := Allocation.Pass(rel).value;
  }

  /** After that release a pair exists, and every best pair is the party
      at the released table. */
  lemma ReleasedBest(st: Store.Store, rel: Store.Store, alice: Store.Entry, k: nat)
    requires Store.Valid(st) && Allocation.Settled(st)
    requires st.entries == [alice]
    requires k < |st.tables| && st.tables[k].capacity >= alice.partySize
    requires rel == Store.Release(st, st.tables[k].number).store
    ensures Store.Valid(rel) && rel.entries == [alice] && !Allocation.Settled(rel)
    ensures forall c :: Allocation.BestPair(rel, c) ==> c.entry == alice && c.table.number == st.tables[k].number
  {
    var t := rel.tables[k];
    assert t.status == Store.Free && t in rel.tables;
    assert alice in rel.entries;
    forall c | Allocation.BestPair(rel, c)
      ensures c.entry == alice && c.table.number == st.tables[k].number
    {
      OnlyReleasedTableFits(st, rel, alice, k, c.table);
    }
  }

  /** A free table after the release that the party fits is the released
      one: any other was free before, and the store was settled. */
  lemma OnlyReleasedTableFits(st: Store.Store, rel: Store.Store, alice: Store.Entry, k: nat, t: Store.Table)
    requires Allocation.Settled(st) && alice in st.entries
    requires k < |st.tables| && |rel.tables| == |st.tables|
    requires forall j :: 0 <= j < |st.tables| && st.tables[j].number != st.tables[k].number ==>
               rel.tables[j] == st.tables[j]
    requires forall j :: 0 <= j < |st.tables| && st.tables[j].number == st.tables[k].number ==>
               rel.tables[j].number == st.tables[k].number
    requires t in rel.tables && t.status == Store.Free && Allocation.Fits(alice, t)
    ensures t.number == st.tables[k].number
  {
    var j :| 0 <= j < |rel.tables| && rel.tables[j] == t;
    assert st.tables[j].number == st.tables[k].number by {
      assert st.tables[j] in st.tables;
    }
  }

  /** Seating the only waiting party leaves nobody waiting. */
  lemma SeatOnlyParty(st: Store.Store, alice: Store.Entry, t: Store.Table) returns (next: Store.Store)
    requires Store.Valid(st) && st.entries == [alice]
    requires t in st.tables && t.status == Store.Free
    ensures next == Store.Seat(st, alice.id, t.id)
    ensures Store.Valid(next) && next.entries == []
  {
    next := Store.Seat(st, alice.id, t.id);
    Allocation.SeatShrinks(st, alice, t);
  }
}

=== FILE: sessions.dfy ===
/**
 The per-sender conversation session both webhook variants keep in memory
 (`user_states` in restaurant.py and app.py). The `data` dictionary the
 source stores beside role and state is always empty and is not modelled.
 */
module Sessions {

  datatype Role = Customer | Waiter

  datatype State = Initial | AwaitingWaiterPassword | AwaitingFreeTableNumber | AwaitingNamePeople

  datatype Session = Session(role: Role, state: State)

  /** The session a new sender starts with, and every completed or aborted
      flow returns to. */
  const Fresh := Session(Customer, Initial)

  /** The waiter password, compared against the lower-cased, stripped text. */
  const WaiterPassword := "waiter123"

  predicate IsWaiterState(st: State) {
    st == AwaitingWaiterPassword || st == AwaitingFreeTableNumber
  }

  /** The four (role, state) pairs a conversation can be in. */
  predicate Valid(s: Session) {
    || s == Session(Customer, Initial)
    || s == Session(Waiter, AwaitingWaiterPassword)
    || s == Session(Waiter, AwaitingFreeTableNumber)
    || s == Session(Customer, AwaitingNamePeople)
  }

  /** A session is one of the four pairs exactly when its role is waiter
      precisely in the two waiter states. */
  lemma ValidIffRoleMatchesState(s: Session)
    ensures Valid(s) <==> (s.role == Waiter <==> IsWaiterState(s.state))
  {
  }

  /** The sender's session, created as `Fresh` on first contact. */
  function SessionOf(sessions: map<string, Session>, sender: string): (s: Session)
    ensures sender in sessions ==> s == sessions[sender]
    ensures sender !in sessions ==> s == Fresh
  {
    if sender in sessions then sessions[sender] else Fresh
  }

  ghost predicate AllValid(sessions: map<string, Session>) {
    forall p :: p in sessions ==> Valid(sessions[p])
  }
}

/** Input handling shared by both webhook variants. */
module Parsing {
  import opened Optional
  import opened Text

  /** Every text message is lower-cased and stripped before it is interpreted. */
  function Normalize(body: string): (t: string)
    ensures forall i :: 0 <= i < |t| ==> !IsUpper(t[i])
    ensures t == [] || (!IsSpace(t[0]) && !IsSpace(t[|t| - 1]))
  {
    Strip(Lower(body))
  }

  datatype NameCount = NameCount(name: string, count: int)

  /** `name, people_count_str = map(str.strip, text.split(","))` followed by
      `int(people_count_str)`: exactly one comma, and an integer after it.
      `None` stands for the `ValueError` either step raises. */
  function ParseNameCount(t: string): (r: Option<NameCount>)
    ensures r.Some? ==> Count(t, ',') == 1
    ensures r.Some? ==> ',' !in r.value.name && Strip(r.value.name) == r.value.name
    ensures Count(t, ',') == 1 ==>
              (r.Some? <==> ParseInt(Strip(Split(t, ',')[1])).Some?)
    ensures r.Some? ==> r.value.name == Strip(Split(t, ',')[0])
                        && Some(r.value.count) == ParseInt(Strip(Split(t, ',')[1]))
  {
    var parts := Split(t, ',');
    if |parts| != 2 then None
    else
      match ParseInt(Strip(parts[1]))
      case None => None
      case Some(n) =>
        var name := Strip(parts[0]);
        StripIdempotent(parts[0]);
        StripKeepsOut(parts[0], ',');
        Some(NameCount(name, n))
  }

  /** A character absent from `s` is absent from its strip. */
  lemma StripKeepsOut(s: string, c: char)
    requires c !in s
    ensures c !in Strip(s)
  {
    var i := LeadingSpace(s);
    assert Strip(s) == s[i..i + |Strip(s)|];
  }

  lemma StripIdempotent(s: string)
    ensures Strip(Strip(s)) == Strip(s)
  {
    StripUntouched(Strip(s));
  }

  /** The first separator in `a + [c] + b`, when `a` has none, is right after `a`. */
  lemma IndexOfAfter(a: string, c: char, b: string)
    requires c !in a
    ensures IndexOf(a + [c] + b, c) == |a|
  {
    var s := a + [c] + b;
    var i := IndexOf(s, c);
    assert s[|a|] == c;
    assert forall j :: 0 <= j < |a| ==> s[j] == a[j];
  }

  /** Splitting at the only separator gives the two sides. */
  lemma SplitTwo(a: string, c: char, b: string)
    requires c !in a && c !in b
    ensures Split(a + [c] + b, c) == [a, b]
  {
    var s := a + [c] + b;
    IndexOfAfter(a, c, b);
    assert s[..|a|] == a;
    assert s[|a| + 1..] == b;
  }

  /** A well-formed join message parses back to its name and count. */
  lemma ParseNameCountRoundTrip(name: string, n: int)
    requires ',' !in name
    requires name == [] || (!IsSpace(name[0]) && !IsSpace(name[|name| - 1]))
    ensures ParseNameCount(name + ", " + IntToDecimal(n)) == Some(NameCount(name, n))
  {
    var d := IntToDecimal(n);
    DecimalShape(n);
    assert name + ", " + d == name + [','] + (" " + d);
    SplitTwo(name, ',', " " + d);
    StripSpaceBefore(d);
    StripUntouched(name);
    ParseIntRoundTrip(n);
  }

  /** Any text with one comma parses to the stripped left side and the
      integer on the right, or fails when the right side is no integer. */
  lemma ParseNameCountSplits(a: string, b: string)
    requires ',' !in a && ',' !in b
    ensures ParseInt(Strip(b)).Some? ==>
              ParseNameCount(a + "," + b) == Some(NameCount(Strip(a), ParseInt(Strip(b)).value))
    ensures ParseInt(Strip(b)).None? ==> ParseNameCount(a + "," + b) == None
  {
    assert a + "," + b == a + [','] + b;
    SplitTwo(a, ',', b);
  }

  /** A decimal numeral has no comma and no whitespace at either end. */
  lemma DecimalShape(n: int)
    ensures ',' !in IntToDecimal(n) && ',' !in " " + IntToDecimal(n)
    ensures |IntToDecimal(n)| > 0
    ensures !IsSpace(IntToDecimal(n)[0]) && !IsSpace(IntToDecimal(n)[|IntToDecimal(n)| - 1])
  {
    var d := IntToDecimal(n);
    if n >= 0 {
      assert IsDigits(d);
    } else {
      var m := NatToDecimal(-n);
      assert IsDigits(m) && d == "-" + m;
      assert d[|d| - 1] == m[|m| - 1];
      assert forall i :: 1 <= i < |d| ==> d[i] == m[i - 1];
    }
    assert (" " + d)[1..] == d;
  }

  /** What is left of the table input once every "table" is removed and the
      rest is stripped. */
  function TableResidue(t: string): (r: string)
    ensures |r| <= |t|
    ensures r == [] || (!IsSpace(r[0]) && !IsSpace(r[|r| - 1]))
  {
    Strip(RemoveAll(t, "table"))
  }

  /** Text without the word "table" is only stripped. */
  lemma TableResidueWithoutWord(t: string)
    requires !Contains(t, "table")
    ensures TableResidue(t) == Strip(t)
  {
    RemoveAllAbsent(t, "table");
  }

  /** A string without the letter 't' cannot contain "table". */
  lemma NoTableWithoutT(s: string)
    requires 't' !in s
    ensures !Contains(s, "table")
  {
    forall i | 0 <= i <= |s| - 5
      ensures !OccursAt(s, "table", i)
    {
      assert s[i..i + 5][0] == s[i] != 't';
    }
  }

  lemma DigitsKeepTable(digits: string)
    requires IsDigits(digits)
    ensures RemoveAll(digits, "table") == digits
    ensures RemoveAll(" " + digits, "table") == " " + digits
  {
    assert 't' !in digits by {
      forall i | 0 <= i < |digits| ensures digits[i] != 't' { assert IsDigit(digits[i]); }
    }
    NoTableWithoutT(digits);
    RemoveAllAbsent(digits, "table");
    NoTableWithoutT(" " + digits);
    RemoveAllAbsent(" " + digits, "table");
  }

  /** A bare number leaves its digits. */
  lemma TableResidueOfDigits(digits: string)
    requires IsDigits(digits)
    ensures TableResidue(digits) == digits
  {
    DigitsKeepTable(digits);
    StripUntouched(digits);
  }

  /** "table N" leaves the digits N. */
  lemma TableResidueOfTableNumber(digits: string)
    requires IsDigits(digits)
    ensures TableResidue("table " + digits) == digits
  {
    RemoveTableWord(digits);
    StripSpacedDigits(digits);
  }

  lemma RemoveTableWord(digits: string)
    requires IsDigits(digits)
    ensures RemoveAll("table " + digits, "table") == " " + digits
  {
    var rest := " " + digits;
    DigitsKeepTable(digits);
    assert "table " + digits == "table" + rest;
    RemoveAllLeading("table", rest);
  }

  lemma StripSpacedDigits(digits: string)
    requires IsDigits(digits)
    ensures Strip(" " + digits) == digits
  {
    assert IsDigit(digits[0]) && IsDigit(digits[|digits| - 1]);
    StripSpaceBefore(digits);
  }

  /** A "t" followed by digits has no "table" in it and is left as it is. */
  lemma TaggedNumberResidue(d: string)
    requires IsDigits(d)
    ensures TableResidue("t" + d) == "t" + d
  {
    var s := "t" + d;
    assert 't' !in d by {
      forall i | 0 <= i < |d| ensures d[i] != 't' { assert IsDigit(d[i]); }
    }
    forall i | 0 <= i <= |s| - 5
      ensures !OccursAt(s, "table", i)
    {
      assert s[i..i + 5][1] == s[i + 1];
      assert s[i + 1] == d[i];
    }
    RemoveAllAbsent(s, "table");
    assert !IsDigits(s);
    StripUntouched(s);
  }
}

=== FILE: store.dfy ===
/**
 The two SQLite tables of restaurant.py as in-memory sequences: `users`
 (the waitlist, one row per phone number) and `tables` (seeded once, then
 only switched between free and occupied). Ids come from AUTOINCREMENT
 counters; timestamps are supplied by the caller as natural numbers.
 */
module Store {
  import opened Optional
  import opened Ordering

  /** A `users` row: one waiting party. */
  datatype Entry = Entry(id: nat, phone: string, name: string, partySize: int, enqueuedAt: nat)

  datatype Status = Free | Occupied

  /** A `tables` row. `occupant` is `occupied_by_user_id`. */
  datatype Table = Table(id: nat, number: string, capacity: int, status: Status, occupant: Option<nat>)

  datatype Store = Store(entries: seq<Entry>, tables: seq<Table>, nextEntryId: nat, nextTableId: nat)

  /** The constraints the schema and the handlers keep: unique positive ids
      below the counters, unique phone numbers, unique table numbers, and an
      occupant exactly on occupied tables. */
  ghost predicate Valid(st: Store) {
    && st.nextEntryId > 0 && st.nextTableId > 0
    && DistinctEntries(st.entries)
    && (forall i :: 0 <= i < |st.entries| ==> 0 < st.entries[i].id < st.nextEntryId)
    && (forall i, j :: 0 <= i < j < |st.tables| ==>
          st.tables[i].id != st.tables[j].id && st.tables[i].number != st.tables[j].number)
    && (forall i :: 0 <= i < |st.tables| ==> 0 < st.tables[i].id < st.nextTableId)
    && (forall i :: 0 <= i < |st.tables| ==>
          (st.tables[i].occupant.Some? <==> st.tables[i].status == Occupied))
  }

  // ---------------------------------------------------------------- waitlist

  /** Position of the entry for `phone`, if any. */
  function FindPhone(entries: seq<Entry>, phone: string): (r: Option<nat>)
    ensures r.Some? ==> r.value < |entries| && entries[r.value].phone == phone
    ensures r.Some? ==> forall k :: 0 <= k < r.value ==> entries[k].phone != phone
    ensures r.None? ==> forall k :: 0 <= k < |entries| ==> entries[k].phone != phone
  {
    if |entries| == 0 then None
    else if entries[0].phone == phone then Some(0)
    else match FindPhone(entries[1..], phone)
      case None => None
      case Some(i) => Some(i + 1)
  }

  predicate HasPhone(st: Store, phone: string) {
    exists k :: 0 <= k < |st.entries| && st.entries[k].phone == phone
  }

  datatype Enqueued = Enqueued(store: Store, id: nat)

  /** `save_user_data_to_db`: update name, size and timestamp of the entry
      for `phone` keeping its id, or insert a new entry with the next id. */
  function Enqueue(st: Store, phone: string, name: string, size: int, now: nat): (r: Enqueued)
    requires Valid(st)
    ensures Valid(r.store)
    ensures r.id > 0
    ensures r.store.tables == st.tables
    ensures exists k :: 0 <= k < |r.store.entries|
                        && r.store.entries[k] == Entry(r.id, phone, name, size, now)
    ensures forall e :: e in r.store.entries && e.phone == phone ==> e == Entry(r.id, phone, name, size, now)
    ensures forall e :: e in st.entries && e.phone == phone ==> e.id == r.id
    ensures forall e :: e in st.entries && e.phone != phone <==> e in r.store.entries && e.phone != phone
    ensures |r.store.entries| == |st.entries| + (if HasPhone(st, phone) then 0 else 1)
  {
    match FindPhone(st.entries, phone)
    case Some(i) =>
      var prev := st.entries[i];
      var updated := prev.(name := name, partySize := size, enqueuedAt := now);
      ReplaceKeepsValid(st, i, updated);
      ReplaceKeepsOthers(st.entries, i, updated);
      assert st.entries[i := updated][i] == updated;
      Enqueued(st.(entries := st.entries[i := updated]), prev.id)
    case None =>
      var added := Entry(st.nextEntryId, phone, name, size, now);
      AppendKeepsValid(st, added);
      var entries := st.entries + [added];
      assert entries[|st.entries|] == added;
      Enqueued(st.(entries := entries, nextEntryId := st.nextEntryId + 1), added.id)
  }

  lemma ReplaceKeepsValid(st: Store, i: nat, e: Entry)
    requires Valid(st) && i < |st.entries|
    requires e.id == st.entries[i].id && e.phone == st.entries[i].phone
    ensures Valid(st.(entries := st.entries[i := e]))
  {
  }

  lemma ReplaceKeepsOthers(es: seq<Entry>, i: nat, e: Entry)
    requires i < |es| && e.phone == es[i].phone
    ensures forall x :: x in es && x.phone != e.phone <==> x in es[i := e] && x.phone != e.phone
  {
    forall x | x in es && x.phone != e.phone
      ensures x in es[i := e]
    {
      var k :| 0 <= k < |es| && es[k] == x;
      assert es[i := e][k] == x;
    }
  }

  lemma AppendKeepsValid(st: Store, e: Entry)
    requires Valid(st)
    requires e.id == st.nextEntryId
    requires forall k :: 0 <= k < |st.entries| ==> st.entries[k].phone != e.phone
    ensures Valid(st.(entries := st.entries + [e], nextEntryId := st.nextEntryId + 1))
  {
  }

  /** Enqueueing the same phone number twice leaves one entry, with the first
      call's id and the second call's name, size and timestamp. */
  lemma EnqueueTwiceKeepsOneEntry(st: Store, phone: string, n1: string, s1: int, t1: nat,
                                  n2: string, s2: int, t2: nat)
    requires Valid(st)
    ensures var a := Enqueue(st, phone, n1, s1, t1);
            var b := Enqueue(a.store, phone, n2, s2, t2);
            && b.id == a.id
            && |b.store.entries| == |st.entries| + (if HasPhone(st, phone) then 0 else 1)
            && (forall e :: e in b.store.entries && e.phone == phone ==> e == Entry(a.id, phone, n2, s2, t2))
            && Entry(a.id, phone, n2, s2, t2) in b.store.entries
  {
    var a := Enqueue(st, phone, n1, s1, t1);
    var k :| 0 <= k < |a.store.entries| && a.store.entries[k] == Entry(a.id, phone, n1, s1, t1);
    assert a.store.entries[k] in a.store.entries;
    assert HasPhone(a.store, phone);
  }

  // ------------------------------------------------------------------ tables

  predicate HasTable(st: Store, number: string) {
    exists k :: 0 <= k < |st.tables| && st.tables[k].number == number
  }

  /** A table as `update_table_status_to_free` leaves it. */
  function Freed(t: Table): Table {
    t.(status := Free, occupant := None)
  }

  datatype Released = Released(store: Store, found: bool)

  /** `update_table_status_to_free`: every table with that number becomes
      free with no occupant; the result says whether there was one. The
      UPDATE counts a matched row even when it was already free. */
  function Release(st: Store, number: string): (r: Released)
    ensures r.found <==> HasTable(st, number)
    ensures r.store.entries == st.entries
    ensures r.store.nextEntryId == st.nextEntryId && r.store.nextTableId == st.nextTableId
    ensures |r.store.tables| == |st.tables|
    ensures forall k :: 0 <= k < |st.tables| && st.tables[k].number != number ==>
              r.store.tables[k] == st.tables[k]
    ensures forall k :: 0 <= k < |st.tables| && st.tables[k].number == number ==>
              r.store.tables[k] == Freed(st.tables[k])
    ensures Valid(st) ==> Valid(r.store)
  {
    var tables := seq(|st.tables|, k requires 0 <= k < |st.tables| =>
                        if st.tables[k].number == number then Freed(st.tables[k]) else st.tables[k]);
    Released(st.(tables := tables), HasTable(st, number))
  }

  /** Releasing twice is releasing once, and both report the table found. */
  lemma ReleaseIdempotent(st: Store, number: string)
    ensures var a := Release(st, number);
            Release(a.store, number).store == a.store && Release(a.store, number).found == a.found
  {
    var a := Release(st, number);
    var b := Release(a.store, number);
    assert b.store.tables == a.store.tables;
    assert HasTable(st, number) ==> HasTable(a.store, number) by {
      if HasTable(st, number) {
        var k :| 0 <= k < |st.tables| && st.tables[k].number == number;
        assert a.store.tables[k].number == number;
      }
    }
  }

  /** Releasing a table that is already free changes nothing and still
      reports success. */
  lemma ReleaseFreeTableIsNoOp(st: Store, k: nat)
    requires Valid(st) && k < |st.tables| && st.tables[k].status == Free
    ensures Release(st, st.tables[k].number) == Released(st, true)
  {
    var number := st.tables[k].number;
    var r := Release(st, number);
    forall j | 0 <= j < |st.tables|
      ensures r.store.tables[j] == st.tables[j]
    {
      if st.tables[j].number == number {
        assert j == k;
      }
    }
    assert r.store.tables == st.tables;
  }

  /** Releasing a number no table has changes nothing and reports failure. */
  lemma ReleaseMissingIsNoOp(st: Store, number: string)
    requires !HasTable(st, number)
    ensures Release(st, number) == Released(st, false)
  {
    var r := Release(st, number);
    forall j | 0 <= j < |st.tables|
      ensures r.store.tables[j] == st.tables[j]
    {
      assert st.tables[j].number != number;
    }
    assert r.store.tables == st.tables;
  }

  // ---------------------------------------------------------- ordered views

  function EntryKey(e: Entry): (int, int) { (e.enqueuedAt, 0) }

  function TableKey(t: Table): (int, int) { (t.capacity, 0) }

  /** `get_waiting_customers`: every entry, oldest timestamp first. */
  function ListWaiting(st: Store): (r: seq<Entry>)
    ensures multiset(r) == multiset(st.entries)
    ensures forall i, j :: 0 <= i < j < |r| ==> r[i].enqueuedAt <= r[j].enqueuedAt
  {
    var r := SortBy(st.entries, EntryKey);
    assert forall i, j :: 0 <= i < j < |r| ==> KeyLe(EntryKey(r[i]), EntryKey(r[j]));
    r
  }

  /** The free tables in table order. */
  function FreeTables(ts: seq<Table>): (r: seq<Table>)
    ensures forall t :: t in r <==> t in ts && t.status == Free
    ensures |r| <= |ts|
  {
    if |ts| == 0 then []
    else
      var head := if ts[0].status == Free then [ts[0]] else [];
      assert ts == [ts[0]] + ts[1..];
      head + FreeTables(ts[1..])
  }

  /** The filter keeps every free table as often as it occurs, and nothing else. */
  lemma {:induction false} FreeTablesCounts(ts: seq<Table>)
    ensures forall t :: multiset(FreeTables(ts))[t] == if t.status == Free then multiset(ts)[t] else 0
  {
    if |ts| > 0 {
      var head := if ts[0].status == Free then [ts[0]] else [];
      var rest := FreeTables(ts[1..]);
      FreeTablesCounts(ts[1..]);
      assert FreeTables(ts) == head + rest;
      assert ts == [ts[0]] + ts[1..];
      assert multiset(ts) == multiset{ts[0]} + multiset(ts[1..]);
      assert multiset(head + rest) == multiset(head) + multiset(rest);
    }
  }

  /** `get_free_tables`: exactly the free tables, smallest capacity first. */
  function ListFree(st: Store): (r: seq<Table>)
    ensures forall t :: t in r <==> t in st.tables && t.status == Free
    ensures forall i, j :: 0 <= i < j < |r| ==> r[i].capacity <= r[j].capacity
  {
    var free := FreeTables(st.tables);
    var r := SortBy(free, TableKey);
    assert forall i, j :: 0 <= i < j < |r| ==> KeyLe(TableKey(r[i]), TableKey(r[j]));
    forall t ensures t in r <==> t in free { SortByMembers(free, TableKey, t); }
    r
  }

  /** The free-table list is a permutation of the free tables: each occurs
      in it exactly as often as in the store. */
  lemma ListFreePermutation(st: Store)
    ensures forall t :: multiset(ListFree(st))[t] == if t.status == Free then multiset(st.tables)[t] else 0
  {
    FreeTablesCounts(st.tables);
    assert multiset(ListFree(st)) == multiset(FreeTables(st.tables));
  }

  // ---------------------------------------------------------------- seating

  /** The entries other than the one with id `id`, in order. */
  function Without(es: seq<Entry>, id: nat): (r: seq<Entry>)
    ensures forall e :: e in r <==> e in es && e.id != id
    ensures |r| <= |es|
    ensures (exists e :: e in es && e.id == id) ==> |r| < |es|
  {
    if |es| == 0 then []
    else if es[0].id == id then Without(es[1..], id)
    else [es[0]] + Without(es[1..], id)
  }

  /** The ids of the free tables. */
  ghost function FreeIds(st: Store): set<nat> {
    set t | t in st.tables && t.status == Free :: t.id
  }

  /** `seat_customer`: the table with `tableId` becomes occupied by
      `entryId`, and the entry with `entryId` leaves the waitlist. */
  function Seat(st: Store, entryId: nat, tableId: nat): (r: Store)
    ensures r.nextEntryId == st.nextEntryId && r.nextTableId == st.nextTableId
    ensures forall e :: e in r.entries <==> e in st.entries && e.id != entryId
    ensures (exists e :: e in st.entries && e.id == entryId) ==> |r.entries| < |st.entries|
    ensures |r.tables| == |st.tables|
    ensures forall k :: 0 <= k < |st.tables| && st.tables[k].id != tableId ==> r.tables[k] == st.tables[k]
    ensures forall k :: 0 <= k < |st.tables| && st.tables[k].id == tableId ==>
              r.tables[k] == st.tables[k].(status := Occupied, occupant := Some(entryId))
    ensures Valid(st) ==> Valid(r)
    ensures Valid(st) ==> FreeIds(r) == FreeIds(st) - {tableId}
  {
    var tables := seq(|st.tables|, k requires 0 <= k < |st.tables| =>
                        if st.tables[k].id == tableId
                        then st.tables[k].(status := Occupied, occupant := Some(entryId))
                        else st.tables[k]);
    var r := st.(entries := Without(st.entries, entryId), tables := tables);
    SeatKeepsValid(st, r, entryId, tableId);
    r
  }

  lemma SeatKeepsValid(st: Store, r: Store, entryId: nat, tableId: nat)
    requires r.nextEntryId == st.nextEntryId && r.nextTableId == st.nextTableId
    requires forall e :: e in r.entries <==> e in st.entries && e.id != entryId
    requires r.entries == Without(st.entries, entryId)
    requires |r.tables| == |st.tables|
    requires forall k :: 0 <= k < |st.tables| && st.tables[k].id != tableId ==> r.tables[k] == st.tables[k]
    requires forall k :: 0 <= k < |st.tables| && st.tables[k].id == tableId ==>
               r.tables[k] == st.tables[k].(status := Occupied, occupant := Some(entryId))
    ensures Valid(st) ==> Valid(r)
    ensures Valid(st) ==> FreeIds(r) == FreeIds(st) - {tableId}
  {
    if Valid(st) {
      SeatValid(st, r, entryId, tableId);
    }
    SeatFreeIds(st, r, entryId, tableId);
  }

  lemma SeatValid(st: Store, r: Store, entryId: nat, tableId: nat)
    requires r.nextEntryId == st.nextEntryId && r.nextTableId == st.nextTableId
    requires forall e :: e in r.entries <==> e in st.entries && e.id != entryId
    requires r.entries == Without(st.entries, entryId)
    requires |r.tables| == |st.tables|
    requires forall k :: 0 <= k < |st.tables| && st.tables[k].id != tableId ==> r.tables[k] == st.tables[k]
    requires forall k :: 0 <= k < |st.tables| && st.tables[k].id == tableId ==>
               r.tables[k] == st.tables[k].(status := Occupied, occupant := Some(entryId))
    requires Valid(st)
    ensures Valid(r)
  {
    WithoutKeepsUnique(st.entries, entryId);
    forall i | 0 <= i < |r.entries| ensures 0 < r.entries[i].id < r.nextEntryId {
      assert r.entries[i] in st.entries;
    }
  }

  lemma SeatFreeIds(st: Store, r: Store, entryId: nat, tableId: nat)
    requires r.nextEntryId == st.nextEntryId && r.nextTableId == st.nextTableId
    requires forall e :: e in r.entries <==> e in st.entries && e.id != entryId
    requires r.entries == Without(st.entries, entryId)
    requires |r.tables| == |st.tables|
    requires forall k :: 0 <= k < |st.tables| && st.tables[k].id != tableId ==> r.tables[k] == st.tables[k]
    requires forall k :: 0 <= k < |st.tables| && st.tables[k].id == tableId ==>
               r.tables[k] == st.tables[k].(status := Occupied, occupant := Some(entryId))
    ensures FreeIds(r) == FreeIds(st) - {tableId}
  {
    forall x | x in FreeIds(r) ensures x in FreeIds(st) - {tableId} {
      var t :| t in r.tables && t.status == Free && t.id == x;
      var k :| 0 <= k < |r.tables| && r.tables[k] == t;
    }
    forall x | x in FreeIds(st) - {tableId} ensures x in FreeIds(r) {
      var t :| t in st.tables && t.status == Free && t.id == x;
      var k :| 0 <= k < |st.tables| && st.tables[k] == t;
      assert r.tables[k] == t;
    }
  }

  /** No two entries share an id or a phone number. */
  ghost predicate DistinctEntries(es: seq<Entry>) {
    forall i, j :: 0 <= i < j < |es| ==> es[i].id != es[j].id && es[i].phone != es[j].phone
  }

  /** Dropping entries keeps ids and phone numbers distinct. */
  lemma {:induction false} WithoutKeepsUnique(es: seq<Entry>, id: nat)
    requires DistinctEntries(es)
    ensures DistinctEntries(Without(es, id))
  {
    if |es| > 0 {
      assert DistinctEntries(es[1..]);
      WithoutKeepsUnique(es[1..], id);
      var rest := Without(es[1..], id);
      forall e | e in rest ensures e.id != es[0].id && e.phone != es[0].phone {
        var k :| 0 <= k < |es[1..]| && es[1..][k] == e;
        assert es[k + 1] == e;
      }
      if es[0].id != id {
        var r := [es[0]] + rest;
        forall i, j | 0 <= i < j < |r| ensures r[i].id != r[j].id && r[i].phone != r[j].phone {
          assert r[j] == rest[j - 1] && r[j] in rest;
          if i > 0 {
            assert r[i] == rest[i - 1];
          }
        }
      }
    }
  }

  /** With distinct ids, seating removes exactly one waiting entry. */
  lemma {:induction false} WithoutUniqueLength(es: seq<Entry>, k: nat)
    requires k < |es|
    requires forall i, j :: 0 <= i < j < |es| ==> es[i].id != es[j].id
    ensures |Without(es, es[k].id)| == |es| - 1
  {
    if k == 0 {
      WithoutAbsent(es[1..], es[0].id);
    } else {
      WithoutUniqueLength(es[1..], k - 1);
    }
  }

  lemma {:induction false} WithoutAbsent(es: seq<Entry>, id: nat)
    requires forall i :: 0 <= i < |es| ==> es[i].id != id
    ensures Without(es, id) == es
  {
    if |es| > 0 {
      WithoutAbsent(es[1..], id);
      assert es == [es[0]] + es[1..];
    }
  }

  // ------------------------------------------------------------------ seeding

  /** `initial_tables_config`: four 2-seaters, four 4-seaters, two 6-seaters. */
  const SeedConfig: seq<(string, int)> := [
    ("T1", 2), ("T2", 2), ("T3", 2), ("T4", 2),
    ("T5", 4), ("T6", 4), ("T7", 4), ("T8", 4),
    ("T9", 6), ("T10", 6)
  ]

  /** `INSERT OR IGNORE`: add a free table unless its number is taken. */
  function InsertOrIgnore(st: Store, number: string, capacity: int): (r: Store)
    ensures HasTable(r, number)
    ensures HasTable(st, number) ==> r == st
    ensures !HasTable(st, number) ==>
              r == st.(tables := st.tables + [Table(st.nextTableId, number, capacity, Free, None)],
                       nextTableId := st.nextTableId + 1)
  {
    if HasTable(st, number) then st
    else
      var row := Table(st.nextTableId, number, capacity, Free, None);
      var r := st.(tables := st.tables + [row], nextTableId := st.nextTableId + 1);
      assert r.tables[|st.tables|] == row;
      r
  }

  /** The insert keeps ids and numbers distinct. */
  lemma InsertOrIgnoreValid(st: Store, number: string, capacity: int)
    requires Valid(st)
    ensures Valid(InsertOrIgnore(st, number, capacity))
  {
    var r := InsertOrIgnore(st, number, capacity);
    assert forall k :: 0 <= k < |st.tables| ==> r.tables[k] == st.tables[k];
  }

  /** A table number the store had is still there after an insert. */
  lemma InsertOrIgnoreKeeps(st: Store, number: string, capacity: int)
    ensures forall n :: HasTable(st, n) ==> HasTable(InsertOrIgnore(st, number, capacity), n)
  {
    var r := InsertOrIgnore(st, number, capacity);
    forall n | HasTable(st, n)
      ensures HasTable(r, n)
    {
      var k :| 0 <= k < |st.tables| && st.tables[k].number == n;
      assert r.tables[k] == st.tables[k];
    }
  }

  /** The seeding loop of `init_db`. */
  function Seed(st: Store, config: seq<(string, int)>): (r: Store)
    ensures r.entries == st.entries
    ensures |st.tables| <= |r.tables| <= |st.tables| + |config|
    ensures r.tables[..|st.tables|] == st.tables
    ensures forall k :: |st.tables| <= k < |r.tables| ==> r.tables[k].status == Free && r.tables[k].occupant == None
    decreases |config|
  {
    if |config| == 0 then st
    else Seed(InsertOrIgnore(st, config[0].0, config[0].1), config[1..])
  }

  /** Seeding keeps the store's constraints. */
  lemma {:induction false} SeedValid(st: Store, config: seq<(string, int)>)
    requires Valid(st)
    ensures Valid(Seed(st, config))
    decreases |config|
  {
    if |config| > 0 {
      InsertOrIgnoreValid(st, config[0].0, config[0].1);
      SeedValid(InsertOrIgnore(st, config[0].0, config[0].1), config[1..]);
    }
  }

  /** After seeding, every number the store had and every configured
      number has a table. */
  lemma {:induction false} SeedCovers(st: Store, config: seq<(string, int)>)
    ensures forall n :: HasTable(st, n) ==> HasTable(Seed(st, config), n)
    ensures forall k :: 0 <= k < |config| ==> HasTable(Seed(st, config), config[k].0)
    decreases |config|
  {
    if |config| > 0 {
      var s1 := InsertOrIgnore(st, config[0].0, config[0].1);
      InsertOrIgnoreKeeps(st, config[0].0, config[0].1);
      SeedCovers(s1, config[1..]);
      assert forall k :: 1 <= k < |config| ==> config[k] == config[1..][k - 1];
    }
  }

  /** Seeding a store that already has every configured number changes nothing. */
  lemma {:induction false} SeedPresent(st: Store, config: seq<(string, int)>)
    requires forall k :: 0 <= k < |config| ==> HasTable(st, config[k].0)
    ensures Seed(st, config) == st
  {
    if |config| > 0 {
      SeedPresent(st, config[1..]);
    }
  }

  /** Running `init_db` twice seeds no duplicates. */
  lemma SeedIdempotent(st: Store, config: seq<(string, int)>)
    ensures Seed(Seed(st, config), config) == Seed(st, config)
  {
    SeedCovers(st, config);
    SeedPresent(Seed(st, config), config);
  }

  /** The rows `Seed` appends for configured numbers the store lacks:
      free, unoccupied, with consecutive ids from `start`. */
  function SeedRows(start: nat, config: seq<(string, int)>): (r: seq<Table>)
    ensures |r| == |config|
    decreases |config|
  {
    if |config| == 0 then []
    else [Table(start, config[0].0, config[0].1, Free, None)] + SeedRows(start + 1, config[1..])
  }

  /** Row `k` of the seeded rows carries id `start + k` and the `k`-th
      configured number and capacity. */
  lemma {:induction false} SeedRowsAt(start: nat, config: seq<(string, int)>, k: nat)
    requires k < |config|
    ensures SeedRows(start, config)[k] == Table(start + k, config[k].0, config[k].1, Free, None)
    decreases k
  {
    if k > 0 {
      SeedRowsAt(start + 1, config[1..], k - 1);
    }
  }

  ghost predicate DistinctNumbers(config: seq<(string, int)>) {
    forall i, j :: 0 <= i < j < |config| ==> config[i].0 != config[j].0
  }

  /** Every configured number is new to the store, and no two are the same. */
  ghost predicate AllNew(st: Store, config: seq<(string, int)>) {
    DistinctNumbers(config) && forall k :: 0 <= k < |config| ==> !HasTable(st, config[k].0)
  }

  /** Seeding numbers that are all new inserts them all, in order. */
  lemma {:induction false} SeedFresh(st: Store, config: seq<(string, int)>)
    requires AllNew(st, config)
    ensures Seed(st, config).tables == st.tables + SeedRows(st.nextTableId, config)
    ensures Seed(st, config).nextTableId == st.nextTableId + |config|
    ensures Seed(st, config).nextEntryId == st.nextEntryId
    decreases |config|
  {
    if |config| > 0 {
      var s1 := StillFresh(st, config);
      SeedFresh(s1, config[1..]);
      AppendAfter(st.tables, s1.tables, Seed(s1, config[1..]).tables, SeedRows(st.nextTableId, config));
    }
  }

  /** After inserting the first configured number, the rest are still new. */
  lemma StillFresh(st: Store, config: seq<(string, int)>) returns (s1: Store)
    requires |config| > 0 && AllNew(st, config)
    ensures Seed(st, config) == Seed(s1, config[1..])
    ensures AllNew(s1, config[1..])
    ensures s1.tables == st.tables + [SeedRows(st.nextTableId, config)[0]]
    ensures s1.nextTableId == st.nextTableId + 1 && s1.nextEntryId == st.nextEntryId
  {
    s1 := InsertOrIgnore(st, config[0].0, config[0].1);
    var tail := config[1..];
    assert !HasTable(st, config[0].0);
    forall k | 0 <= k < |tail|
      ensures !HasTable(s1, tail[k].0)
    {
      assert tail[k].0 == config[k + 1].0 != config[0].0;
      forall j | 0 <= j < |s1.tables|
        ensures s1.tables[j].number != tail[k].0
      {
        if j < |st.tables| {
          assert s1.tables[j] == st.tables[j];
          assert !HasTable(st, config[k + 1].0);
        }
      }
    }
  }

  /** Growing `a` by one row to `b`, then `b` by the rest to `c`, grows `a` by all of `rows`. */
  lemma AppendAfter<T>(a: seq<T>, b: seq<T>, c: seq<T>, rows: seq<T>)
    requires |rows| > 0 && b == a + [rows[0]] && c == b + rows[1..]
    ensures c == a + rows
  {
  }

  /** The store before the first `init_db`. */
  const Empty := Store([], [], 1, 1)

  /** The store right after `init_db`: no waiting entries and the ten
      configured tables, all free, numbered and sized as configured. */
  function InitStore(): (r: Store)
    ensures Valid(r)
    ensures r == Store([], SeedRows(1, SeedConfig), 1, 1 + |SeedConfig|)
  {
    EmptyValid();
    SeedValid(Empty, SeedConfig);
    SeedConfigDistinct();
    assert AllNew(Empty, SeedConfig);
    SeedFresh(Empty, SeedConfig);
    Seed(Empty, SeedConfig)
  }

  lemma EmptyValid()
    ensures Valid(Empty)
    ensures forall k :: 0 <= k < |SeedConfig| ==> !HasTable(Empty, SeedConfig[k].0)
  {
  }

  lemma SeedConfigDistinct()
    ensures DistinctNumbers(SeedConfig)
  {
  }
}

=== FILE: text.dfy ===
/** The Option type used wherever the source returns None or uses a sentinel. */
module Optional {

  datatype Option<+T> = None | Some(value: T)
}

/**
 The handful of Python `str` operations the conversation logic relies on,
 restricted to what the handlers use: `lower`, `upper`, `strip`,
 `replace(pat, "")`, `split(sep)`, `isdigit` and `int`.
 Case mapping and digits are ASCII only; whitespace is the set Python's
 `str.isspace` accepts.
 */
module Text {
  import opened Optional

  /** Python's `str.isspace` for one character. */
  predicate IsSpace(c: char) {
    || c == ' '
    || '\t' <= c <= '\r'
    || '\U{1C}' <= c <= '\U{1F}'
    || c == '\U{85}' || c == '\U{A0}' || c == '\U{1680}'
    || '\U{2000}' <= c <= '\U{200A}'
    || c == '\U{2028}' || c == '\U{2029}' || c == '\U{202F}' || c == '\U{205F}'
    || c == '\U{3000}'
  }

  predicate IsUpper(c: char) { 'A' <= c <= 'Z' }

  predicate IsLower(c: char) { 'a' <= c <= 'z' }

  predicate IsDigit(c: char) { '0' <= c <= '9' }

  function LowerChar(c: char): (r: char)
    ensures !IsUpper(r)
    ensures !IsUpper(c) ==> r == c
    ensures IsUpper(c) ==> IsLower(r) && r as int - c as int == 32
  {
    if IsUpper(c) then (c as int + 32) as char else c
  }

  function UpperChar(c: char): (r: char)
    ensures !IsLower(r)
    ensures !IsLower(c) ==> r == c
    ensures IsLower(c) ==> IsUpper(r) && c as int - r as int == 32
  {
    if IsLower(c) then (c as int - 32) as char else c
  }

  /** `str.lower()`: every ASCII capital mapped to its small letter, nothing else touched. */
  function Lower(s: string): (r: string)
    ensures |r| == |s|
    ensures forall i :: 0 <= i < |r| ==> !IsUpper(r[i])
    ensures forall i :: 0 <= i < |s| && !IsUpper(s[i]) ==> r[i] == s[i]
    ensures forall i :: 0 <= i < |s| && IsUpper(s[i]) ==> IsLower(r[i]) && r[i] as int == s[i] as int + 32
  {
    seq(|s|, i requires 0 <= i < |s| => LowerChar(s[i]))
  }

  /** `str.upper()`, ASCII only. */
  function Upper(s: string): (r: string)
    ensures |r| == |s|
    ensures forall i :: 0 <= i < |r| ==> !IsLower(r[i])
    ensures forall i :: 0 <= i < |s| && !IsLower(s[i]) ==> r[i] == s[i]
    ensures forall i :: 0 <= i < |s| && IsLower(s[i]) ==> IsUpper(r[i]) && r[i] as int == s[i] as int - 32
  {
    seq(|s|, i requires 0 <= i < |s| => UpperChar(s[i]))
  }

  /** Lower-casing twice is lower-casing once. */
  lemma LowerIdempotent(s: string)
    ensures Lower(Lower(s)) == Lower(s)
  {
  }

  /** How many whitespace characters `str.lstrip()` cuts from the front. */
  function LeadingSpace(s: string): (n: nat)
    ensures n <= |s|
    ensures forall k :: 0 <= k < n ==> IsSpace(s[k])
    ensures n == |s| || !IsSpace(s[n])
    decreases |s|
  {
    if |s| > 0 && IsSpace(s[0]) then
      var n := LeadingSpace(s[1..]);
      assert forall k :: 1 <= k <= n ==> s[k] == s[1..][k - 1];
      1 + n
    else 0
  }

  /** How many whitespace characters `str.rstrip()` cuts from the back. */
  function TrailingSpace(s: string): (n: nat)
    ensures n <= |s|
    ensures forall k :: |s| - n <= k < |s| ==> IsSpace(s[k])
    ensures n == |s| || !IsSpace(s[|s| - 1 - n])
    decreases |s|
  {
    if |s| > 0 && IsSpace(s[|s| - 1]) then
      var p := s[..|s| - 1];
      var n := TrailingSpace(p);
      assert forall k :: 0 <= k < |p| ==> s[k] == p[k];
      1 + n
    else 0
  }

  /** `str.strip()`: a contiguous slice of `s`, with only whitespace cut away
      on either side, that neither starts nor ends with whitespace. */
  function Strip(s: string): (r: string)
    ensures |r| <= |s|
    ensures r == [] || (!IsSpace(r[0]) && !IsSpace(r[|r| - 1]))
    ensures LeadingSpace(s) + |r| <= |s| && r == s[LeadingSpace(s)..LeadingSpace(s) + |r|]
  {
    var i := LeadingSpace(s);
    if i == |s| then []
    else
      var j := TrailingSpace(s);
      // s[i] is not whitespace, so the trailing run ends after it
      assert !IsSpace(s[i]);
      s[i..|s| - j]
  }

  /** `str.strip()` cuts away nothing but whitespace. */
  lemma StripCutsOnlySpace(s: string)
    ensures forall k :: 0 <= k < LeadingSpace(s) ==> IsSpace(s[k])
    ensures forall k :: LeadingSpace(s) + |Strip(s)| <= k < |s| ==> IsSpace(s[k])
  {
  }

  /** The slice between a whitespace prefix and a whitespace suffix, when
      it is empty or has no whitespace at either end, is the strip. */
  lemma StripIsSlice(s: string, i: nat, j: nat)
    requires i <= j <= |s|
    requires forall k :: 0 <= k < i ==> IsSpace(s[k])
    requires forall k :: j <= k < |s| ==> IsSpace(s[k])
    requires i == j || (!IsSpace(s[i]) && !IsSpace(s[j - 1]))
    ensures Strip(s) == s[i..j]
  {
    var n := LeadingSpace(s);
    if i < j {
      assert n <= i by {
        assert !IsSpace(s[i]);
      }
      assert n >= i by {
        assert n < |s| ==> !IsSpace(s[n]);
      }
      var m := TrailingSpace(s);
      assert m <= |s| - j by {
        assert !IsSpace(s[j - 1]);
      }
      assert m >= |s| - j by {
        assert m < |s| ==> !IsSpace(s[|s| - 1 - m]);
      }
    } else {
      assert forall k :: 0 <= k < |s| ==> IsSpace(s[k]);
      assert n == |s|;
    }
  }

  /** A string that neither starts nor ends with whitespace is its own strip. */
  lemma StripUntouched(s: string)
    requires s == [] || (!IsSpace(s[0]) && !IsSpace(s[|s| - 1]))
    ensures Strip(s) == s
  {
    StripIsSlice(s, 0, |s|);
  }

  /** One space in front of a string that is already stripped is cut away. */
  lemma StripSpaceBefore(s: string)
    requires s == [] || (!IsSpace(s[0]) && !IsSpace(s[|s| - 1]))
    ensures Strip(" " + s) == s
  {
    var t := " " + s;
    assert t[1..|t|] == s;
    StripIsSlice(t, 1, |t|);
  }

  /** Lower-casing neither makes nor removes whitespace, so it commutes
      with stripping. */
  lemma StripLowerCommute(s: string)
    ensures Strip(Lower(s)) == Lower(Strip(s))
  {
    var i := LeadingSpace(s);
    var j := i + |Strip(s)|;
    StripCutsOnlySpace(s);
    if i < j {
      assert Strip(s)[0] == s[i] && Strip(s)[|Strip(s)| - 1] == s[j - 1];
    }
    LowerKeepsSpace(s, i, j);
    StripIsSlice(Lower(s), i, j);
    LowerSlice(s, i, j);
  }

  /** A whitespace prefix and suffix around a non-space slice stay so after lower-casing. */
  lemma LowerKeepsSpace(s: string, i: nat, j: nat)
    requires i <= j <= |s|
    requires forall k :: 0 <= k < i ==> IsSpace(s[k])
    requires forall k :: j <= k < |s| ==> IsSpace(s[k])
    requires i == j || (!IsSpace(s[i]) && !IsSpace(s[j - 1]))
    ensures forall k :: 0 <= k < i ==> IsSpace(Lower(s)[k])
    ensures forall k :: j <= k < |s| ==> IsSpace(Lower(s)[k])
    ensures i == j || (!IsSpace(Lower(s)[i]) && !IsSpace(Lower(s)[j - 1]))
  {
    var l := Lower(s);
    forall k | 0 <= k < |s|
      ensures IsSpace(l[k]) <==> IsSpace(s[k])
    {
      LowerCharSpace(s[k]);
    }
  }

  lemma LowerSlice(s: string, i: nat, j: nat)
    requires i <= j <= |s|
    ensures Lower(s)[i..j] == Lower(s[i..j])
  {
  }

  lemma LowerCharSpace(c: char)
    ensures IsSpace(LowerChar(c)) <==> IsSpace(c)
  {
  }

  /** Whether `pat` occurs anywhere in `s`. */
  ghost predicate Contains(s: string, pat: string) {
    exists i :: OccursAt(s, pat, i)
  }

  /** Whether `pat` occurs in `s` starting at position `i`. */
  predicate OccursAt(s: string, pat: string, i: int) {
    0 <= i <= |s| - |pat| && s[i..i + |pat|] == pat
  }

  /** `s.replace(pat, "")`: a left-to-right scan that drops each
      non-overlapping occurrence of `pat`; what remains is not rescanned. */
  function RemoveAll(s: string, pat: string): (r: string)
    requires |pat| > 0
    ensures |r| <= |s|
    ensures multiset(r) <= multiset(s)
    decreases |s|
  {
    if |s| == 0 then []
    else if pat <= s then
      var rest := RemoveAll(s[|pat|..], pat);
      assert s == s[..|pat|] + s[|pat|..];
      rest
    else
      assert s == [s[0]] + s[1..];
      [s[0]] + RemoveAll(s[1..], pat)
  }

  /** Removing a pattern that does not occur changes nothing. */
  lemma {:induction false} RemoveAllAbsent(s: string, pat: string)
    requires |pat| > 0
    requires !Contains(s, pat)
    ensures RemoveAll(s, pat) == s
    decreases |s|
  {
    if |s| > 0 {
      assert pat <= s ==> OccursAt(s, pat, 0);
      forall i | OccursAt(s[1..], pat, i)
        ensures OccursAt(s, pat, i + 1)
      {
        assert s[1..][i..i + |pat|] == s[i + 1..i + 1 + |pat|];
      }
      RemoveAllAbsent(s[1..], pat);
      assert s == [s[0]] + s[1..];
    }
  }

  /** A leading occurrence is dropped whole. */
  lemma RemoveAllLeading(pat: string, s: string)
    requires |pat| > 0
    ensures RemoveAll(pat + s, pat) == RemoveAll(s, pat)
  {
    assert pat <= pat + s;
    assert (pat + s)[|pat|..] == s;
  }

  /** Because the result is not rescanned, an occurrence can reappear once an
      inner one is removed: "tatableble" loses its inner "table" and leaves
      "table". */
  lemma RemoveAllCanLeaveOccurrence(rest: string)
    requires !Contains("ble" + rest, "table")
    ensures RemoveAll("tatableble" + rest, "table") == "table" + rest
  {
    var s0 := "ble" + rest;
    var s1 := "table" + s0;
    RemoveAllAbsent(s0, "table");
    RemoveAllLeading("table", s0);
    RemoveAllKeeps('a', s1, "table");
    RemoveAllKeeps('t', "a" + s1, "table");
    NestedTableShape(rest);
  }

  lemma NestedTableShape(rest: string)
    ensures "tatableble" + rest == "t" + ("a" + ("table" + ("ble" + rest)))
    ensures "t" + ("a" + ("ble" + rest)) == "table" + rest
    ensures ("a" + ("table" + ("ble" + rest)))[1] == 't'
    ensures ("t" + ("a" + ("table" + ("ble" + rest))))[2] == 't'
  {
  }

  /** A character that does not start `pat` is kept. */
  lemma RemoveAllKeeps(c: char, s: string, pat: string)
    requires |pat| > 2 && |s| > 1 && s[1] != pat[2]
    ensures RemoveAll([c] + s, pat) == [c] + RemoveAll(s, pat)
  {
    assert ([c] + s)[2] == s[1];
    assert !(pat <= [c] + s);
    assert ([c] + s)[1..] == s;
  }

  /** The pieces joined back with `sep`. */
  function Join(parts: seq<string>, sep: char): string
    requires |parts| > 0
  {
    if |parts| == 1 then parts[0] else parts[0] + [sep] + Join(parts[1..], sep)
  }

  /** Number of occurrences of `c` in `s`. */
  function Count(s: string, c: char): nat {
    if |s| == 0 then 0 else (if s[0] == c then 1 else 0) + Count(s[1..], c)
  }

  /** Position of the first `c` in `s`. */
  function IndexOf(s: string, c: char): (i: nat)
    requires c in s
    ensures i < |s| && s[i] == c && c !in s[..i]
  {
    if s[0] == c then 0 else 1 + IndexOf(s[1..], c)
  }

  lemma {:induction false} CountSplitAt(s: string, i: nat, c: char)
    requires i < |s| && s[i] == c && c !in s[..i]
    ensures Count(s, c) == 1 + Count(s[i + 1..], c)
    decreases i
  {
    if i > 0 {
      assert s[1..][..i - 1] == s[1..i];
      assert c !in s[1..][..i - 1];
      CountSplitAt(s[1..], i - 1, c);
      assert s[1..][i..] == s[i + 1..];
      assert s[0] != c by { assert s[0] == s[..i][0]; }
    }
  }

  lemma {:induction false} CountAbsent(s: string, c: char)
    requires c !in s
    ensures Count(s, c) == 0
    decreases |s|
  {
    if |s| > 0 {
      assert c !in s[1..];
      CountAbsent(s[1..], c);
    }
  }

  /** `s.split(sep)`: the pieces between separators, none of which contains
      `sep`; joining them back gives `s`, and there is one piece more than
      there are separators. */
  function Split(s: string, sep: char): (parts: seq<string>)
    ensures |parts| == Count(s, sep) + 1
    ensures forall k :: 0 <= k < |parts| ==> sep !in parts[k]
    ensures Join(parts, sep) == s
    decreases |s|
  {
    if sep !in s then
      CountAbsent(s, sep);
      [s]
    else
      var i := IndexOf(s, sep);
      var rest := Split(s[i + 1..], sep);
      CountSplitAt(s, i, sep);
      var parts := [s[..i]] + rest;
      SplitStep(s, i, sep, rest, parts);
      parts
  }

  /** The piece before the first separator, put in front of the pieces of
      the rest, joins back to the whole. */
  lemma SplitStep(s: string, i: nat, sep: char, rest: seq<string>, parts: seq<string>)
    requires i < |s| && s[i] == sep && sep !in s[..i]
    requires |rest| > 0 && Join(rest, sep) == s[i + 1..]
    requires forall k :: 0 <= k < |rest| ==> sep !in rest[k]
    requires parts == [s[..i]] + rest
    ensures Join(parts, sep) == s
    ensures forall k :: 0 <= k < |parts| ==> sep !in parts[k]
  {
    assert parts[1..] == rest;
    assert Join(parts, sep) == s[..i] + [sep] + Join(rest, sep);
    JoinAround(s, i);
    forall k | 0 <= k < |parts|
      ensures sep !in parts[k]
    {
      if k > 0 {
        assert parts[k] == rest[k - 1];
      }
    }
  }

  /** A string is the part before position `i`, the character there, and the part after. */
  lemma JoinAround(s: string, i: nat)
    requires i < |s|
    ensures s == s[..i] + [s[i]] + s[i + 1..]
  {
  }

  /** `str.startswith(prefix)`. */
  predicate StartsWith(s: string, prefix: string) {
    prefix <= s
  }

  /** `str.isdigit()`: non-empty and made only of ASCII digits. */
  predicate IsDigits(s: string) {
    |s| > 0 && forall k :: 0 <= k < |s| ==> IsDigit(s[k])
  }

  /** The value of a string of decimal digits. */
  function DigitsValue(s: string): nat
    requires forall k :: 0 <= k < |s| ==> IsDigit(s[k])
  {
    if |s| == 0 then 0
    else
      assert IsDigit(s[|s| - 1]);
      10 * DigitsValue(s[..|s| - 1]) + (s[|s| - 1] as int - '0' as int)
  }

  /** `int(s)` on an already stripped string: an optional sign, then at least one digit. */
  function ParseInt(s: string): (r: Option<int>)
    ensures IsDigits(s) ==> r == Some(DigitsValue(s))
    ensures r.Some? ==> IsDigits(s) || (|s| > 1 && (s[0] == '-' || s[0] == '+') && IsDigits(s[1..]))
    ensures r.Some? && r.value < 0 ==> s[0] == '-'
    ensures |s| > 1 && (s[0] == '-' || s[0] == '+') && IsDigits(s[1..]) ==>
              r == Some(if s[0] == '-' then -(DigitsValue(s[1..]) as int) else DigitsValue(s[1..]))
  {
    if IsDigits(s) then Some(DigitsValue(s))
    else if |s| > 1 && (s[0] == '-' || s[0] == '+') && IsDigits(s[1..]) then
      var v: int := DigitsValue(s[1..]);
      Some(if s[0] == '-' then -v else v)
    else None
  }

  function DigitChar(d: nat): (c: char)
    requires d < 10
    ensures IsDigit(c) && c as int - '0' as int == d
  {
    ('0' as int + d) as char
  }

  /** `str(n)` for a natural number. */
  function NatToDecimal(n: nat): (r: string)
    ensures IsDigits(r)
    ensures |r| > 1 ==> r[0] != '0'
  {
    if n < 10 then [DigitChar(n)] else NatToDecimal(n / 10) + [DigitChar(n % 10)]
  }

  /** `str(n)` for any integer. */
  function IntToDecimal(n: int): string {
    if n < 0 then "-" + NatToDecimal(-n) else NatToDecimal(n)
  }

  lemma {:induction false} NatToDecimalValue(n: nat)
    ensures DigitsValue(NatToDecimal(n)) == n
  {
    if n >= 10 {
      var s := NatToDecimal(n);
      assert s[..|s| - 1] == NatToDecimal(n / 10);
      NatToDecimalValue(n / 10);
    }
  }

  /** `int(str(n)) == n` for every integer. */
  lemma ParseIntRoundTrip(n: int)
    ensures ParseInt(IntToDecimal(n)) == Some(n)
  {
    if n < 0 {
      var s := IntToDecimal(n);
      assert s[1..] == NatToDecimal(-n);
      NatToDecimalValue(-n);
      assert !IsDigits(s) by { assert !IsDigit(s[0]); }
    } else {
      NatToDecimalValue(n);
    }
  }
}

=== FILE: webhook.dfy ===
/**
 The POST handler of restaurant.py's webhook: one inbound message moves the
 sender's session, may enqueue a party or free a table, and after either
 runs the allocation engine. The outbound messages are returned in the
 order the handler sends them; delivery is not modelled.
 */
module Webhook {
  import opened Optional
  import opened Text
  import opened Sessions
  import opened Parsing
  import opened Conversation
  import Store
  import Allocation
  import Scenarios

  /** One inbound WhatsApp message: its sender, whether its type is "text",
      and the text body. */
  datatype Event = Event(sender: string, isText: bool, body: string)

  datatype Outbound = Outbound(to: string, message: Message)

  /** The process-wide state: the in-memory sessions and the database. */
  datatype World = World(sessions: map<string, Session>, store: Store.Store)

  datatype Handled = Handled(world: World, sent: seq<Outbound>)

  /** What the handler keeps between messages: every session is one of the
      four pairs, the database constraints hold, and no waiting party fits
      a free table. */
  ghost predicate Invariant(w: World) {
    AllValid(w.sessions) && Store.Valid(w.store) && Allocation.Settled(w.store)
  }

  /** The notifications `seat_customer` sends, in seating order. */
  function Notices(seated: seq<Allocation.Seating>): (out: seq<Outbound>)
    ensures |out| == |seated|
    ensures forall k :: 0 <= k < |seated| ==>
              out[k] == Outbound(seated[k].phone, TableReady(seated[k].name, seated[k].number))
  {
    if |seated| == 0 then []
    else [Outbound(seated[0].phone, TableReady(seated[0].name, seated[0].number))] + Notices(seated[1..])
  }

  datatype Effect = Effect(store: Store.Store, sent: seq<Outbound>)

  /** Running one command for `sender`: the confirmation (or lookup
      failure) first, then a notification per seating of the allocation
      run it triggers. A failed lookup changes nothing and seats nobody. */
  function Run(st: Store.Store, sender: string, cmd: Command, now: nat): (r: Effect)
    requires Store.Valid(st)
    ensures Store.Valid(r.store)
    ensures Allocation.Settled(st) ==> Allocation.Settled(r.store)
    ensures |r.sent| >= 1 && r.sent[0].to == sender
    ensures forall k :: 1 <= k < |r.sent| ==> r.sent[k].message.TableReady?
    ensures cmd.Enqueue? ==> r.sent[0].message == Queued(cmd.name, cmd.count) && Allocation.Settled(r.store)
    ensures cmd.FreeTable? && Store.HasTable(st, cmd.number) ==>
              r.sent[0].message == TableFreed(cmd.number) && Allocation.Settled(r.store)
    ensures cmd.FreeTable? && !Store.HasTable(st, cmd.number) ==>
              r == Effect(st, [Outbound(sender, TableNotFound(cmd.number))])
  {
    match cmd
    case Enqueue(name, count) =>
      var q := Store.Enqueue(st, sender, name, count, now);
      var a := Allocation.Allocate(q.store);
      Effect(a.store, [Outbound(sender, Queued(name, count))] + Notices(a.seated))
    case FreeTable(number) =>
      var rel := Store.Release(st, number);
      if rel.found then
        var a := Allocation.Allocate(rel.store);
        Effect(a.store, [Outbound(sender, TableFreed(number))] + Notices(a.seated))
      else
        Store.ReleaseMissingIsNoOp(st, number);
        Effect(rel.store, [Outbound(sender, TableNotFound(number))])
  }

  /** One inbound message. A new sender gets a fresh session; a non-text
      message is answered with a notice and moves nothing. */
  function Handle(w: World, ev: Event, now: nat): (r: Handled)
    requires Store.Valid(w.store)
    ensures Store.Valid(r.world.store)
    ensures Invariant(w) ==> Invariant(r.world)
    ensures ev.sender in r.world.sessions
    ensures forall p :: p != ev.sender ==> (p in r.world.sessions <==> p in w.sessions)
    ensures forall p :: p != ev.sender && p in w.sessions ==> r.world.sessions[p] == w.sessions[p]
    ensures |r.sent| >= 1 && r.sent[0].to == ev.sender
    ensures !ev.isText ==>
              && r.world.store == w.store
              && r.world.sessions[ev.sender] == SessionOf(w.sessions, ev.sender)
              && r.sent == [Outbound(ev.sender, TextOnly)]
    ensures ev.isText ==>
              var tr := Step(SessionOf(w.sessions, ev.sender), Normalize(ev.body));
              && r.world.sessions[ev.sender] == tr.session
              && (tr.commands == [] ==> r.world.store == w.store && r.sent == [Outbound(ev.sender, tr.reply.value)])
  {
    var s := SessionOf(w.sessions, ev.sender);
    if !ev.isText then
      PutSession(w.sessions, ev.sender, s);
      Handled(World(w.sessions[ev.sender := s], w.store), [Outbound(ev.sender, TextOnly)])
    else
      var tr := Step(s, Normalize(ev.body));
      var sessions := w.sessions[ev.sender := tr.session];
      PutSession(w.sessions, ev.sender, tr.session);
      if |tr.commands| == 0 then
        Handled(World(sessions, w.store), [Outbound(ev.sender, tr.reply.value)])
      else
        var eff := Run(w.store, ev.sender, tr.commands[0], now);
        Handled(World(sessions, eff.store), eff.sent)
  }

  /** Storing one sender's session leaves every other sender's alone. */
  lemma PutSession(sessions: map<string, Session>, sender: string, s: Session)
    ensures sender in sessions[sender := s] && sessions[sender := s][sender] == s
    ensures forall p :: p != sender ==> (p in sessions[sender := s] <==> p in sessions)
    ensures forall p :: p != sender && p in sessions ==> sessions[sender := s][p] == sessions[p]
    ensures AllValid(sessions) && Valid(s) ==> AllValid(sessions[sender := s])
    ensures AllValid(sessions) ==> Valid(SessionOf(sessions, sender))
  {
  }

  // ------------------------------------------------------------- payloads

  /** One element of an entry's `changes` list. */
  datatype Change = Change(field: string, messages: seq<Event>)

  /** The JSON body Meta posts: `object` and the `entry` list, each entry
      holding its `changes`. */
  datatype Payload = Payload(objectKind: string, entries: seq<seq<Change>>)

  /** Of each change the handler looks at only the first message, and only
      when the change is about messages and has any. */
  function ChangeEvents(changes: seq<Change>): (evs: seq<Event>)
    ensures |evs| <= |changes|
    ensures forall e :: e in evs ==>
              exists c :: c in changes && c.field == "messages" && |c.messages| > 0 && c.messages[0] == e
    ensures forall c :: c in changes && c.field == "messages" && |c.messages| > 0 ==> c.messages[0] in evs
  {
    if |changes| == 0 then []
    else
      var c := changes[0];
      var rest := ChangeEvents(changes[1..]);
      if c.field == "messages" && |c.messages| > 0 then [c.messages[0]] + rest else rest
  }

  /** The messages a payload delivers, in order; none unless the object is
      a WhatsApp business account. */
  function Events(p: Payload): (evs: seq<Event>)
    ensures p.objectKind != "whatsapp_business_account" ==> evs == []
    ensures forall e :: e in evs ==> exists k :: 0 <= k < |p.entries| && e in ChangeEvents(p.entries[k])
    ensures p.objectKind == "whatsapp_business_account" ==>
              forall k, e :: 0 <= k < |p.entries| && e in ChangeEvents(p.entries[k]) ==> e in evs
  {
    if p.objectKind != "whatsapp_business_account" then [] else EntryEvents(p.entries)
  }

  function EntryEvents(entries: seq<seq<Change>>): (evs: seq<Event>)
    ensures forall e :: e in evs ==> exists k :: 0 <= k < |entries| && e in ChangeEvents(entries[k])
    ensures forall k, e :: 0 <= k < |entries| && e in ChangeEvents(entries[k]) ==> e in evs
  {
    if |entries| == 0 then []
    else
      var rest := EntryEvents(entries[1..]);
      EntriesCons(entries, rest);
      ChangeEvents(entries[0]) + rest
  }

  /** Prepending the first entry's messages to those of the other entries
      gives the messages of all entries. */
  lemma EntriesCons(entries: seq<seq<Change>>, rest: seq<Event>)
    requires |entries| > 0
    requires forall e :: e in rest ==> exists k :: 0 <= k < |entries[1..]| && e in ChangeEvents(entries[1..][k])
    requires forall k, e :: 0 <= k < |entries[1..]| && e in ChangeEvents(entries[1..][k]) ==> e in rest
    ensures var evs := ChangeEvents(entries[0]) + rest;
            && (forall e :: e in evs ==> exists k :: 0 <= k < |entries| && e in ChangeEvents(entries[k]))
            && (forall k, e :: 0 <= k < |entries| && e in ChangeEvents(entries[k]) ==> e in evs)
  {
    EntriesConsSound(entries, rest);
    EntriesConsComplete(entries, rest);
  }

  lemma EntriesConsSound(entries: seq<seq<Change>>, rest: seq<Event>)
    requires |entries| > 0
    requires forall e :: e in rest ==> exists k :: 0 <= k < |entries[1..]| && e in ChangeEvents(entries[1..][k])
    ensures forall e :: e in ChangeEvents(entries[0]) + rest ==>
              exists k :: 0 <= k < |entries| && e in ChangeEvents(entries[k])
  {
    forall e | e in ChangeEvents(entries[0]) + rest
      ensures exists k :: 0 <= k < |entries| && e in ChangeEvents(entries[k])
    {
      if e !in ChangeEvents(entries[0]) {
        var k :| 0 <= k < |entries[1..]| && e in ChangeEvents(entries[1..][k]);
        assert entries[1..][k] == entries[k + 1];
      }
    }
  }

  lemma EntriesConsComplete(entries: seq<seq<Change>>, rest: seq<Event>)
    requires |entries| > 0
    requires forall k, e :: 0 <= k < |entries[1..]| && e in ChangeEvents(entries[1..][k]) ==> e in rest
    ensures forall k, e :: 0 <= k < |entries| && e in ChangeEvents(entries[k]) ==> e in ChangeEvents(entries[0]) + rest
  {
    forall k, e | 0 <= k < |entries| && e in ChangeEvents(entries[k])
      ensures e in ChangeEvents(entries[0]) + rest
    {
      if k > 0 {
        assert entries[1..][k - 1] == entries[k];
      }
    }
  }

  /** The messages of one request, handled one after the other; every
      message is answered at least once. */
  function HandleAll(w: World, evs: seq<Event>, now: nat): (r: Handled)
    requires Store.Valid(w.store)
    ensures Store.Valid(r.world.store)
    ensures Invariant(w) ==> Invariant(r.world)
    ensures |r.sent| >= |evs|
    decreases |evs|
  {
    if |evs| == 0 then Handled(w, [])
    else
      var first := Handle(w, evs[0], now);
      var rest := HandleAll(first.world, evs[1..], now);
      Handled(rest.world, first.sent + rest.sent)
  }

  /** A sender with no message in the request keeps its session, or keeps
      having none. */
  lemma {:induction false} HandleAllOthers(w: World, evs: seq<Event>, now: nat, p: string)
    requires Store.Valid(w.store)
    requires forall e :: e in evs ==> e.sender != p
    ensures p in HandleAll(w, evs, now).world.sessions <==> p in w.sessions
    ensures p in w.sessions ==> HandleAll(w, evs, now).world.sessions[p] == w.sessions[p]
    decreases |evs|
  {
    if |evs| > 0 {
      assert evs[0] in evs;
      var first := Handle(w, evs[0], now);
      assert forall e :: e in evs[1..] ==> e in evs;
      HandleAllOthers(first.world, evs[1..], now, p);
    }
  }

  /** A POST of the webhook. */
  function HandlePayload(w: World, p: Payload, now: nat): (r: Handled)
    requires Store.Valid(w.store)
    ensures Store.Valid(r.world.store)
    ensures Invariant(w) ==> Invariant(r.world)
    ensures p.objectKind != "whatsapp_business_account" ==> r == Handled(w, [])
  {
    HandleAll(w, Events(p), now)
  }

  // ------------------------------------------------------------ scenarios

  /** The lower-cased form of "T" followed by digits. */
  lemma NormalizeTaggedBody(d: string)
    requires IsDigits(d)
    ensures Normalize("T" + d) == "t" + d
  {
    var l := Lower("T" + d);
    assert forall i :: 1 <= i < |l| ==> l[i] == d[i - 1] by {
      forall i | 1 <= i < |l| ensures l[i] == d[i - 1] {
        assert ("T" + d)[i] == d[i - 1];
        assert IsDigit(d[i - 1]);
      }
    }
    assert l == "t" + d;
    StripUntouched(l);
  }

  /** The waiter frees table "T" + d, which fits the only waiting party:
      the waiter is told, the party is seated there and notified, and the
      waiter's session resets. */
  lemma FreeingTableSeatsWaitingParty(w: World, waiter: string, d: string, alice: Store.Entry, k: nat, now: nat)
    requires Invariant(w)
    requires IsDigits(d)
    requires SessionOf(w.sessions, waiter) == Session(Waiter, AwaitingFreeTableNumber)
    requires w.store.entries == [alice]
    requires k < |w.store.tables| && w.store.tables[k].number == "T" + d
    requires w.store.tables[k].capacity >= alice.partySize
    ensures var r := Handle(w, Event(waiter, true, "T" + d), now);
            && |r.sent| == 2
            && r.sent[0] == Outbound(waiter, TableFreed("T" + d))
            && r.sent[1] == Outbound(alice.phone, TableReady(alice.name, "T" + d))
            && r.world.sessions[waiter] == Fresh
            && r.world.store.entries == []
  {
    var ev := Event(waiter, true, "T" + d);
    NormalizeTaggedBody(d);
    NormalizeTaggedNumber(d);
    FreeTableAlwaysResets("t" + d);
    HandleRunsCommand(w, ev, now, FreeTable("T" + d));
    ReleaseSeatsOnlyParty(w.store, waiter, alice, k, now);
  }

  /** The store side of that scenario. */
  lemma ReleaseSeatsOnlyParty(st: Store.Store, waiter: string, alice: Store.Entry, k: nat, now: nat)
    requires Store.Valid(st) && Allocation.Settled(st)
    requires st.entries == [alice]
    requires k < |st.tables| && st.tables[k].capacity >= alice.partySize
    ensures var number := st.tables[k].number;
            var e := Run(st, waiter, FreeTable(number), now);
            && e.sent == [Outbound(waiter, TableFreed(number)), Outbound(alice.phone, TableReady(alice.name, number))]
            && e.store.entries == []
  {
    var number := st.tables[k].number;
    assert Store.HasTable(st, number);
    Scenarios.ReleasedTableSeatsAlone(st, Store.Release(st, number).store, alice, k);
    RunReleaseFound(st, waiter, number, now);
    NoticeOne(Allocation.Seating(alice.phone, alice.name, number));
  }

  lemma NoticeOne(s: Allocation.Seating)
    ensures Notices([s]) == [Outbound(s.phone, TableReady(s.name, s.number))]
  {
  }

  /** A text message whose transition asks for a command is answered by
      running that command. */
  lemma HandleRunsCommand(w: World, ev: Event, now: nat, cmd: Command)
    requires Store.Valid(w.store) && ev.isText
    requires Step(SessionOf(w.sessions, ev.sender), Normalize(ev.body)).commands == [cmd]
    ensures Handle(w, ev, now).sent == Run(w.store, ev.sender, cmd, now).sent
    ensures Handle(w, ev, now).world.store == Run(w.store, ev.sender, cmd, now).store
    ensures Handle(w, ev, now).world.sessions[ev.sender]
              == Step(SessionOf(w.sessions, ev.sender), Normalize(ev.body)).session
  {
  }

  /** Freeing an existing table confirms it and then notifies every party
      the allocation run seats. */
  lemma RunReleaseFound(st: Store.Store, sender: string, number: string, now: nat)
    requires Store.Valid(st) && Store.HasTable(st, number)
    ensures var a := Allocation.Allocate(Store.Release(st, number).store);
            && Run(st, sender, FreeTable(number), now).sent == [Outbound(sender, TableFreed(number))] + Notices(a.seated)
            && Run(st, sender, FreeTable(number), now).store == a.store
  {
  }

  /** Joining the queue confirms the party and then notifies every party
      the allocation run seats. */
  lemma RunJoinAllocates(st: Store.Store, sender: string, name: string, count: int, now: nat)
    requires Store.Valid(st)
    ensures var a := Allocation.Allocate(Store.Enqueue(st, sender, name, count, now).store);
            && Run(st, sender, Enqueue(name, count), now).sent == [Outbound(sender, Queued(name, count))] + Notices(a.seated)
            && Run(st, sender, Enqueue(name, count), now).store == a.store
  {
  }

  /** A party that joins is either waiting afterwards, under its name, size
      and arrival time, or one of the notices tells it that its table is ready. */
  lemma RunJoinQueuesOrSeats(st: Store.Store, sender: string, name: string, count: int, now: nat)
    requires Store.Valid(st)
    ensures var r := Run(st, sender, Enqueue(name, count), now);
            || (exists e :: e in r.store.entries && e.phone == sender && e.name == name
                             && e.partySize == count && e.enqueuedAt == now)
            || (exists k :: 1 <= k < |r.sent| && r.sent[k].to == sender
                             && r.sent[k].message == TableReady(name, r.sent[k].message.number))
  {
    var q := Store.Enqueue(st, sender, name, count, now);
    var joined := Store.Entry(q.id, sender, name, count, now);
    assert joined in q.store.entries;
    Allocation.AllocateAccounts(q.store);
    var a := Allocation.Allocate(q.store);
    RunJoinAllocates(st, sender, name, count, now);
    var r := Run(st, sender, Enqueue(name, count), now);
    WaitingOrNotified(r, Outbound(sender, Queued(name, count)), a.seated, joined);
  }

  /** An entry that is still waiting, or that a seating names, is visible
      in the effect that publishes those seatings. */
  lemma WaitingOrNotified(r: Effect, head: Outbound, seated: seq<Allocation.Seating>, e: Store.Entry)
    requires r.sent == [head] + Notices(seated)
    requires e in r.store.entries || Allocation.SeatedIn(seated, e)
    ensures || (exists x :: x in r.store.entries && x.phone == e.phone && x.name == e.name
                            && x.partySize == e.partySize && x.enqueuedAt == e.enqueuedAt)
            || (exists k :: 1 <= k < |r.sent| && r.sent[k].to == e.phone
                             && r.sent[k].message == TableReady(e.name, r.sent[k].message.number))
  {
    if e !in r.store.entries {
      var k :| 0 <= k < |seated| && seated[k].phone == e.phone && seated[k].name == e.name;
      assert r.sent[k + 1] == Notices(seated)[k];
    }
  }
}
